=== FILE: README.md ===
# Hasher, modelled in Dafny

Hasher keeps a digest of each file's contents in an extended attribute of
that file. The paths come from the command line: `main` hands the worker
threads a shared cursor over the arguments, and each worker claims the next
path from it. utils.cc also has a second source, a background directory walk
that sends each regular file's path through a socket pair. The `main` of
hasher.cc never uses it. The model covers it on its own (`Sources.Recurse`,
`Sources.StreamDeliversRegularFiles`), and `Hasher.Run` uses only the cursor.

Hasher then runs one of four operations on each path:

- **apply** computes the digest and stores it.
- **check** recomputes the digest and compares it with the stored one.
- **print** prints the stored digest.
- **reset** removes the stored digest.

Each operation answers a status bit-set: `OK` = 0, `MISMATCH` = 1, `ERROR` = 2.
Each worker ORs its statuses into its own code. `main` ORs the workers' codes
together and turns the result into the exit status. With `-E`, the default,
only the `MISMATCH` bit survives; with `-e` the whole code does. A fatal
condition (`DIE`/`QUIT`) ends the process; here it is the `Fatal` variant of
`Outcome`.

The model is a set of pure functions over an abstract operating system
(module `Store`), which holds:

- files with contents;
- extended attributes;
- an owner;
- the running user's read and write permission;
- a flag for a device whose attribute calls fail with EIO.

The digest library is a parameter (module `Digests`). It is a table of known
algorithm names and a digest function that stays uninterpreted. Every result
holds for every digest function that keeps to the advertised sizes.

Modules:

- `Common`: bytes, `Option`, and the `Outcome` type (`Ok` or `Fatal`).
- `Hex`: the two-digit lower-case rendering of digests, its decoder, and a loop
  that fills a buffer the way `snprintf` does.
- `Status`: the `HashStatus` bits, and the fold a worker applies.
- `Store`, `Digests`: the environment.
- `Xattr`: how `get_attr`, `set_attr` and `remove_attr` turn a system call's
  result and errno into a return code, for both OS branches. `xattr.cc` and
  `platform.cc` contain the same functions, so they are modelled once.
- `Platform`: `open_flags`.
- `Sources`: the fixed-list cursor, the record channel and the directory walk
  that fills it, and the `Source` that a worker reads.
- `FileHashes`: the `FileHash` object of `file_hash.cc`, the one that
  `hasher.cc` uses.
- `Files`: the `File` object of `file.cc`, a later revision built on the
  `Xattr` wrappers.
- `Hasher`:
  - the four operations;
  - the worker loop;
  - `main` after argument parsing.

Workers are run one after another. This is one schedule the threads can
take. `Status.AggregateIndependentOfSchedule` shows that, for the same
statuses, the combined code does not depend on which worker got which
status, or in what order. The statuses themselves can depend on the schedule
when a path is given twice (see "## Left out").

Some behaviour of `main` and the workers that the model keeps:

- `main` hashes with one algorithm, `sha512`, which is fixed in the code
  (hasher.cc:180).
- `main` starts `-t` worker threads and waits for all of them. With `-t 0` it
  handles nothing and exits 0.
- Each worker ORs into its own code, and `main` ORs these codes together at
  the end (hasher.cc:185-187).
- `check` prints `<name>: ok` or `<name>: FAILED`, without the algorithm name.
- An empty argument on the command line stops the worker that claims it, as
  if the list had ended (`Hasher.EmptyArgumentStopsWorker`). That worker has
  used the empty argument up, so the next worker goes on with the arguments
  after it (`Hasher.SecondWorkerPassesBlank`).

Where the sources and the header comments disagree, the model follows the
code. The comments at `xattr.h:6` and `xattr.h:9-10` are examples.

## Model

| member | source | states |
|---|---|---|
| Hex.Digit | file_hash.cc:94 | every value 0..15 is shown as a lower-case hex digit |
| Hex.DigitTable | file_hash.cc:94 | value n in 0..15 is shown as the n-th character of "0123456789abcdef" |
| Hex.DigitValue | file_hash.cc:94 | each lower-case hex digit reads back as the value it shows, so digits are one-to-one |
| Hex.Encode | file_hash.cc:89-98 | the rendering of n bytes has 2n characters, all lower-case hex |
| Hex.EncodeAt | file_hash.cc:92-95 | byte i is shown at positions 2i and 2i+1, high nibble first (zero-padded `%02x`) |
| Hex.Decode | file_hash.cc:89-98 | a successful reading of a string yields half as many bytes as the string has characters |
| Hex.DecodeEncode | file_hash.cc:89-98 | reading the rendering back gives the original bytes |
| Hex.EncodeInjective | file_hash.cc:89-98 | different digests always render differently |
| Hex.Render | file.cc:146-154 | filling a buffer three characters per byte (two digits and a terminator that the next byte overwrites) leaves exactly the rendering of the bytes |
| Status.Code | hasher.cc:13-17 | MISMATCH sets only bit 0, ERROR sets only bit 1, OK sets none |
| Status.Fold | hasher.cc:50-54 | a worker's code has the MISMATCH bit exactly when some status is MISMATCH, and the ERROR bit exactly when some status is ERROR |
| Status.Accumulate | hasher.cc:53 | OR-ing statuses one by one into a running code gives the running code OR the fold of the statuses |
| Status.FoldIgnoresOk | hasher.cc:14 | OK statuses do not change the code |
| Status.FoldPermutation | hasher.cc:53 | the code does not depend on the order in which files are processed |
| Status.FoldAppend | hasher.cc:53 | the code of two runs together is the OR of their codes |
| Status.Reduce | hasher.cc:185-187 | every bit of every worker's code is set in the combined code |
| Status.ReduceFolds | hasher.cc:185-187 | OR-reducing the workers' codes gives the fold of all statuses handled |
| Status.AggregateIndependentOfSchedule | hasher.cc:177-187 | however the statuses are split among workers, the reduced code is the fold of all of them |
| Status.ExitStatus | hasher.cc:188-189 | the exit status keeps the MISMATCH bit; with report-all-errors it is the whole code, otherwise nothing else survives |
| Status.ExitStatusMeaning | hasher.cc:185-189 | by default the exit is 1 exactly when some file mismatched; with report-all-errors, ERROR shows as well |
| Xattr.SystemName | platform.cc:70 | on Linux the name handed to the system is "user." followed by the name; on FreeBSD it is the bare name, in the user namespace |
| Xattr.GetAttr | platform.cc:69-81 | return code 0 with the size on success, 1 with size 0 when the attribute is missing, -1 for any other error |
| Xattr.SetAttr | platform.cc:83-89 | return code 0 on success, 1 when permission is refused, -1 for any other error |
| Xattr.RemoveAttr | platform.cc:91-98 | 0 for success, a missing attribute or a refused permission; -1 only for other errors |
| Xattr.BranchesAgree | platform.cc:25-98 | for every return value, including a positive length from a read, the FreeBSD branch classifies the result as the Linux branch does, with ENOATTR in place of ENODATA; a FreeBSD write that returns the byte count is a Linux write that returns 0 |
| Xattr.GetAttrOn | xattr.cc:48-60 | against the file system: 0 with the stored value when it fits, 1 with size 0 when absent, -1 otherwise |
| Xattr.SetAttrOn | xattr.cc:62-68 | against the file system: 0 when writable, with the value stored and nothing else changed; 1 with nothing changed when not writable; -1 with nothing changed exactly when the file's attribute calls fail |
| Xattr.RemoveAttrOn | xattr.cc:70-77 | against the file system: 0 whenever the file's attribute calls work, -1 otherwise. On a writable file the attribute is gone and nothing else changed; otherwise nothing changed |
| Xattr.RemoveIdempotent | xattr.cc:70-77 | removing twice answers and leaves the same as removing once |
| Platform.OpenFlags | platform.cc:100-106 | O_NOATIME is added exactly on Linux when the process owns the file; a path that cannot be stat-ed is fatal; on FreeBSD the flags are always O_RDONLY |
| Platform.OpenFlagsNeverRefused | platform.cc:100-106 | the flags chosen never make open fail with EPERM |
| Sources.AtomicGetNext | utils.cc:19-27 | at the terminator it returns "" and stays put; otherwise it returns the element under the cursor and moves on by one |
| Sources.ClaimsDrainList | hasher.cc:30-38 | successive claims return every remaining argument once, in order, and then "" for ever |
| Sources.Emit | utils.cc:60-70 | the walk sends one record per regular file, in walk order; a short write is fatal |
| Sources.Recurse | utils.cc:49-73 | the channel ends up holding exactly the regular files' paths, closed once after the walk |
| Sources.Truncate | utils.cc:40-45 | a read returns the record's bytes, at most 4096 of them |
| Sources.SocketGetNext | utils.cc:38-47 | a closed, empty channel reads as "", and each other read takes the next record |
| Sources.StreamDeliversRegularFiles | utils.cc:38-73 | reading the stream gives the regular files in walk order, then "" for ever |
| Sources.UntilBlank | hasher.cc:50-52 | what a worker takes is the prefix before the first "" |
| Sources.After | hasher.cc:50-52 | when the list has a "", it is what a worker takes, then the "", then what is left |
| Sources.Segments | hasher.cc:177-183 | the workers' stretches together never contain "", and are the whole list when it has none |
| Sources.GetNext | hasher.cc:51 | a non-empty answer uses up one remaining path, so the worker loop ends |
| FileHashes.AttrName | file_hash.cc:69 | the attribute is "user.hash." followed by the algorithm name |
| FileHashes.AttrNameInjective | file_hash.cc:69 | different algorithms use different attributes |
| FileHashes.Create | file_hash.cc:35-43 | opening a file that is missing or unreadable is fatal; otherwise the digest starts empty |
| FileHashes.ReadXattrReplies | file_hash.cc:68-86 | a missing attribute leaves the digest unchanged and any other error is fatal; a second read of another length is fatal; otherwise the digest becomes the value read |
| FileHashes.ReadFileHashXattr | file_hash.cc:68-86 | against the file system the digest becomes the stored value, or stays as it was when there is none |
| FileHashes.HashFileContents | file_hash.cc:45-63 | an unknown algorithm is fatal; otherwise the digest becomes the digest of the whole contents, of the algorithm's size |
| FileHashes.MmapContents | file_hash.cc:128-145 | the mapped bytes are the file's contents, and a zero-length file is not mapped |
| FileHashes.EmptyFileDigest | file_hash.cc:133 | a zero-length file is digested as empty input |
| FileHashes.HashString | file_hash.cc:89-98 | the digest's rendering has two characters per byte and reads back as the digest |
| FileHashes.Equals | file_hash.cc:100-105 | equal exactly when the file names, algorithm names and digests are all equal |
| FileHashes.SetHashXattr | file_hash.cc:107-116 | 0 with the digest stored, 1 with nothing changed when permission is refused, fatal otherwise |
| FileHashes.ClearHashXattr | file_hash.cc:118-126 | 0 when an attribute was removed, 1 when it was absent or permission was refused, fatal otherwise. On a writable file the slot is empty after and nothing else changed, so a file without the attribute is left as it was; a refused file is left as it was |
| Files.AttrName | file.cc:101 | the name handed to the wrappers is "hash." followed by the algorithm name |
| Files.SameSlotAsFileHash | platform.cc:70 | with "user." added, the file.cc name is the file_hash.cc name, so both revisions share one attribute |
| Files.AttrNameInjective | file.cc:101 | different algorithms use different attributes |
| Files.HashToString | file.cc:146-154 | the same rendering as HashString: 2n lower-case hex characters |
| Files.GetHashMetadata | file.cc:100-113 | a failing get_attr is fatal; a missing or empty attribute is no digest; otherwise the stored bytes |
| Files.UpdateHashMetadata | file.cc:115-123 | as written, the answer is OK exactly when the file is not writable. A writable file gets the value in its slot and nothing else changes; otherwise nothing changes |
| Files.UpdateSuccessReportsError | file.cc:121-122 | a write that stores the digest is reported as Error |
| Files.UpdateHashMetadataFixed | file.cc:115-123 | OK exactly when the digest was stored, and then only that slot changed; on Error nothing changes |
| Files.RemoveHashMetadata | file.cc:125-134 | after a removal that was allowed to write, the attribute is gone and nothing else changed; otherwise nothing changes |
| Files.RemoveNeverError | file.cc:127-133 | the Error answers cannot be reached, and the second remove_attr leaves things as the first left them |
| Files.AccessMode | file.cc:96 | read permission is always asked for, write permission exactly when writing |
| Files.IsAccessible | file.cc:95-98 | true exactly when the file exists, is readable, and is also writable if writing is asked for |
| Files.LoadFlags | file.cc:21-27 | the flags are O_RDONLY, with O_NOATIME added exactly on Linux, for every file |
| Files.LoadFile | file.cc:29-45 | contents exactly when open succeeds and the file is not empty |
| Files.HashFileContents | file.cc:73-93 | an unknown algorithm is fatal; a file that cannot be loaded has no digest; otherwise the contents' digest of the algorithm's size |
| Files.EmptyFileNotHashed | file.cc:39-42 | a readable empty file gets no digest |
| Files.ForeignFileNotHashed | file.cc:21-27 | on Linux a readable file the user does not own gets no digest |
| Files.HashFileContentsFixed | file.cc:73-93 | every readable file gets the digest of its contents |
| Files.FixedAgreesWithFileHash | file_hash.cc:45-63 | the corrected digest equals what the file_hash.cc revision computes |
| Hasher.ApplyHash | hasher.cc:57-70 | a file with a digest is skipped with ERROR and nothing written. Otherwise the answer is OK, whatever the write answered, and the digest line is printed. A writable file gets the digest of its contents in its slot and nothing else changes |
| Hasher.ApplySkipsHashed | hasher.cc:59-63 | a file that already has a digest is neither hashed nor written |
| Hasher.CheckHash | hasher.cc:72-91 | ERROR without hashing when there is no digest; OK exactly when the stored digest equals the fresh one; MISMATCH otherwise; nothing is written |
| Hasher.CheckSkipsMissing | hasher.cc:74-78 | a file without a digest is not hashed |
| Hasher.ApplyThenCheck | hasher.cc:65-85 | apply then check on unchanged contents, with the write allowed, answers OK |
| Hasher.PrintHash | hasher.cc:93-100 | ERROR and nothing printed without a digest; otherwise OK and "<hex>  <name>" |
| Hasher.ResetHash | hasher.cc:102-107 | always OK. The digest is gone and nothing else changed, unless permission was refused; then nothing changed |
| Hasher.ResetThenPrint | hasher.cc:93-107 | after a reset that was allowed to write, print finds no digest |
| Hasher.Task | hasher.cc:141-144 | on a sound file with a known algorithm the selected operation never ends the process, and it changes only attributes |
| Hasher.TasksShape | hasher.cc:50-54 | running the task on each path in turn never ends the process on healthy files with a known algorithm; otherwise, when it does not end it, it gives one status per path and changes only attributes |
| Hasher.TasksCons | hasher.cc:50-54 | running the task on a path and then on more paths is one task, then the rest from the file system it left; a fatal first task ends the run |
| Hasher.TasksAppend | hasher.cc:50-54 | running the task on two lists one after the other is running it on the joined list; a fatal first part ends the run |
| Hasher.Worker | hasher.cc:44-55 | a worker takes the pending paths up to the next "" and uses that "" up. It ends the process exactly when running the task on those paths in turn does. Otherwise its statuses, final file system and output are those of that run, and its code is its starting code ORed with every status |
| Hasher.RunWorkers | hasher.cc:177-183 | each worker in turn takes the next stretch of the list up to a "". The workers end the process exactly when running the task over those stretches does. Otherwise they leave that run's statuses, file system and output, one code per worker |
| Hasher.RunOthers | hasher.cc:177-183 | after a first worker, the remaining workers together do what `RunWorkers` promises for the whole list |
| Hasher.Run | hasher.cc:165-190 | no operation exits 1. Otherwise the process ends exactly when running the task on the arguments the threads take does. If it does not, the exit is the masked OR of those tasks' statuses, and with at least one thread and no empty argument every argument is handled |
| Hasher.EmptyArgumentStopsWorker | hasher.cc:50-54 | with one thread, the arguments after an empty one are never handled |
| Hasher.SecondWorkerPassesBlank | hasher.cc:30-38 | with two threads, the second worker goes on after the first empty argument, up to the next one |

## Left out

- Threads, the atomic compare-and-swap cursor and the socket pair. Workers are run one after another; `Status.AggregateIndependentOfSchedule` covers every split of a fixed set of statuses among workers. `GlobalWriteLock` is defined in common.cc:5-8 but never called: every output line is written with an unlocked `puts` (hasher.cc:61-105). How lines from different threads interleave is not modelled.
- Hasher.Run: models one schedule. With a path given twice, threads can interleave on the same file. For example, with `apply` on `a a` and two threads, both can read the attribute before either writes it (hasher.cc:58-66). Both then answer OK, where one after the other gives OK then ERROR, so with `-e` the exit is 0 instead of 2. That race is not modelled. Which worker handles which path, and the order in which output lines from different threads appear, are not modelled.
- `ParseArgs`, `getopt`, `basename`, `ShowHelp` and the `sysconf` thread count (hasher.cc:109-163). They are argument plumbing. `Run` takes the selected operation, thread count and reporting policy as parameters.
- The OpenSSL EVP calls. They become the `Digester` parameter: a table of known names and an uninterpreted digest function.
- `fts_open` and `fts_read`. The walk is a given sequence of entries with their kinds. A walk that cannot start (`DIE("fts_open")`) is not modelled.
- Sources.SocketGetNext: a read that would block until the writer sends more, and a failed read (`DIE("read")`), are not modelled. It requires a channel that is closed or holds a record.
- `close`, `fstat`, `munmap` and their failures, and failures of `mmap` on a non-empty file. File descriptors are not tracked: `FileHash` names its file by path.
- Store: the file system maps each path to its own file, so two paths never name one file. Aliases such as `a` and `./a`, hard links, or a symbolic link and its target cannot be expressed. The system calls act on one inode for all of them: with `apply` on `a ./a`, one thread answers OK and then ERROR, where the model answers OK twice. The "nothing else changed" clauses of `Store.Written` and `Store.Erased` hold only under this assumption.
- Xattr.GetAttr: the conversion of `getxattr`'s `ssize_t` into `int` is not modelled. It only matters for values over 2 GiB.
- Privileges: root and CAP_FOWNER, which bypass permission checks. The FreeBSD attribute store: for FreeBSD only the classification of results is modelled.
- Exact output text beyond the lines' shape. Output is a sequence of lines.
- `build.py`, the headers and the licence headers.
- Hasher.Task: the store cannot make a set or remove fail on its own. On a real disk `fsetxattr` can fail with ENOSPC, EDQUOT or E2BIG, and `fremovexattr` with other errors, after the read worked; the program then dies (file_hash.cc:110-111, 120-123). "A healthy file with a known algorithm never ends the process" holds only for this store.
- Hasher.ApplyHash: for the same reason, a store whose write fails with ENOSPC, EDQUOT or E2BIG is not modelled. The only write failures are a refused permission (answer 1) and a device whose attribute calls fail (fatal).
- Sources.Truncate: paths are sequences of characters, and the program counts bytes (`strlen` and `write` at utils.cc:64-69, the 4096-byte `read` at utils.cc:40-41). A path longer than 4096 bytes with multi-byte characters is cut at a different point. `Sources.Emit` likewise treats a short `write` as one of characters.

## Findings

| source | as written | input that shows it | evidently intended | confidence | as-written member | corrected member |
|---|---|---|---|---|---|---|
| file.cc:115-123 | `result > 0` is OK and `0` is Error, but `set_attr` answers 0 for success and 1 for a refused permission | a writable file: the digest is stored and Error is reported | 0 is OK and 1 is Error | high, not executed | Files.UpdateSuccessReportsError | Files.UpdateHashMetadataFixed |
| file.cc:29-45 | `load_file` maps `st_size` bytes, and `mmap` refuses a length of 0 with EINVAL | a readable empty file: `HashFileContents` answers no digest | an empty file is digested as empty input, as file_hash.cc:133 does | high, not executed | Files.EmptyFileNotHashed | Files.HashFileContentsFixed, Files.FixedAgreesWithFileHash |
| file.cc:21-27 | Linux opens with `O_RDONLY|O_NOATIME` for every file, and open(2) refuses O_NOATIME with EPERM to anyone but the owner | a readable file owned by another user: no digest | add O_NOATIME only for the owner, as `open_flags` (platform.cc:100-106) does | medium, not executed | Files.ForeignFileNotHashed | Files.HashFileContentsFixed, Files.FixedAgreesWithFileHash |

=== FILE: common.dfy ===
/** Values every part of the model shares: the byte type, an optional value,
    and the outcome of a step that may end the whole process.

    The program ends the process from deep inside helpers through its DIE and
    QUIT macros (common.h:9-10). The model makes that a distinguished `Fatal`
    outcome that every caller propagates unchanged. */
module Common {

  /** An unsigned char / uint8_t. */
  type byte = b: int | 0 <= b < 256

  datatype Option<+T> = None | Some(value: T)

  /** `Ok` carries the value of a step that returned; `Fatal` is a process exit
      through DIE or QUIT, and `diagnostic` names the step that failed. */
  datatype Outcome<+T> = Ok(value: T) | Fatal(diagnostic: string) {

    predicate IsFailure() {
      Fatal?
    }

    function PropagateFailure<U>(): Outcome<U>
      requires Fatal?
    {
      Fatal(diagnostic)
    }

    function Extract(): T
      requires Ok?
    {
      value
    }
  }
}

=== FILE: file.dfy ===
/** File (file.cc), the later revision of the stored-digest object: a path
    and an algorithm name, with the digest passed in and out as values. Its
    attribute is "hash." followed by the algorithm name, which the Linux
    attribute wrappers put in the "user." namespace. It reads and writes
    attributes through get_attr, set_attr and remove_attr (module Xattr). */
module Files {
  import opened Common
  import opened Store
  import opened Digests
  import opened Xattr
  import Platform
  import Hex
  import FileHashes

  datatype File = File(path: string, hashName: string)

  datatype HashResult = OK | Error

  /** The attribute name handed to the wrappers. */
  function AttrName(hashName: string): (n: string)
    ensures |n| == |hashName| + 5 && n[..5] == "hash." && n[5..] == hashName
  {
    "hash." + hashName
  }

  /** On Linux the attribute lands in the same slot the earlier revision
      wrote, so both revisions read and write one attribute per algorithm. */
  lemma SameSlotAsFileHash(hashName: string)
    ensures SystemName(Linux, AttrName(hashName)) == FileHashes.AttrName(hashName)
  {
  }

  /** Different algorithms are stored under different attributes. */
  lemma AttrNameInjective(a: string, b: string)
    ensures AttrName(a) == AttrName(b) ==> a == b
  {
  }

  /** hash_to_string: the same rendering as HashString. */
  function HashToString(bytes: seq<byte>): (s: string)
    ensures |s| == 2 * |bytes|
    ensures forall k :: 0 <= k < |s| ==> Hex.IsHexDigit(s[k])
    ensures s == FileHashes.HashString(FileHashes.FileHash("", "", bytes))
  {
    Hex.Encode(bytes)
  }

  /** GetHashMetadata: reads into a buffer of EVP_MAX_MD_SIZE bytes; a
      negative get_attr code ends the process (so does a value too long for
      the buffer), and a size of 0, which a missing attribute and an empty
      one both give, is no digest. */
  function GetHashMetadata(fs: Fs, f: File): (r: Outcome<Option<seq<byte>>>)
    ensures r.Ok? <==> Reachable(fs, f.path) && fs.files[f.path].readable
                       && |Metadata(fs, f)| <= MaxDigestSize
    ensures r.Ok? ==> (r.value.None? <==> Metadata(fs, f) == [])
    ensures r.Ok? && r.value.Some? ==> r.value.value == Metadata(fs, f)
  {
    var (res, buf) := GetAttrOn(fs, f.path, AttrName(f.hashName), MaxDigestSize);
    if res.code < 0 then Fatal("getxattr")
    else if res.size == 0 then Ok(None)
    else Ok(Some(buf[..res.size]))
  }

  /** The attribute's value, or nothing when there is none. */
  function Metadata(fs: Fs, f: File): seq<byte> {
    match Slot(fs, f.path, SystemName(Linux, AttrName(f.hashName)))
    case Some(v) => v
    case None => []
  }

  /** UpdateHashMetadata as written: a negative set_attr code ends the
      process, a positive one is OK and 0 is Error. set_attr answers 0 for
      success and 1 for a refused permission, so the two are swapped. */
  function UpdateHashMetadata(fs: Fs, f: File, value: seq<byte>): (r: Outcome<(HashResult, Fs)>)
    ensures r.Ok? <==> Reachable(fs, f.path)
    ensures r.Ok? ==> (r.value.0 == OK <==> !fs.files[f.path].writable)
    ensures r.Ok? && fs.files[f.path].writable ==> r.value.1 == Written(fs, f.path, SystemName(Linux, AttrName(f.hashName)), value)
    ensures r.Ok? && !fs.files[f.path].writable ==> r.value.1 == fs
  {
    var (result, fs') := SetAttrOn(fs, f.path, AttrName(f.hashName), value);
    if result < 0 then Fatal("set_attr")
    else if result > 0 then Ok((OK, fs'))
    else Ok((Error, fs'))
  }

  /** A successful write reports Error. */
  lemma UpdateSuccessReportsError(fs: Fs, f: File, value: seq<byte>)
    requires Reachable(fs, f.path) && fs.files[f.path].writable
    ensures UpdateHashMetadata(fs, f, value).Ok?
    ensures UpdateHashMetadata(fs, f, value).value.0 == Error
    ensures Metadata(UpdateHashMetadata(fs, f, value).value.1, f) == value
  {
  }

  /** UpdateHashMetadata with the codes read the way set_attr gives them:
      0 is OK, 1 (permission refused) is Error. */
  function UpdateHashMetadataFixed(fs: Fs, f: File, value: seq<byte>): (r: Outcome<(HashResult, Fs)>)
    ensures r.Ok? <==> Reachable(fs, f.path)
    ensures r.Ok? ==> (r.value.0 == OK <==> Metadata(r.value.1, f) == value && fs.files[f.path].writable)
    ensures r.Ok? && r.value.0 == OK ==> r.value.1 == Written(fs, f.path, SystemName(Linux, AttrName(f.hashName)), value)
    ensures r.Ok? && r.value.0 == Error ==> r.value.1 == fs
  {
    var (result, fs') := SetAttrOn(fs, f.path, AttrName(f.hashName), value);
    if result < 0 then Fatal("set_attr")
    else if result == 0 then Ok((OK, fs'))
    else Ok((Error, fs'))
  }

  /** RemoveHashMetadata: a non-zero remove_attr code ends the process unless
      errno is ENODATA or EACCES; then remove_attr runs once more and its
      answer is dropped. */
  function RemoveHashMetadata(fs: Fs, f: File): (r: Outcome<(HashResult, Fs)>)
    ensures r.Ok? <==> Reachable(fs, f.path)
    ensures r.Ok? && fs.files[f.path].writable ==> Metadata(r.value.1, f) == []
    ensures r.Ok? && fs.files[f.path].writable ==> r.value.1 == Erased(fs, f.path, SystemName(Linux, AttrName(f.hashName)))
    ensures r.Ok? && !fs.files[f.path].writable ==> r.value.1 == fs
  {
    var name := AttrName(f.hashName);
    var reply := RemoveXattr(fs, f.path, SystemName(Linux, name));
    var (code, fs1) := RemoveAttrOn(fs, f.path, name);
    if code != 0 then
      var errno := if reply.Failed? then reply.errno else NoError;
      if errno == ENODATA then Ok((Error, fs1))
      else if errno == EACCES then Ok((Error, fs1))
      else Fatal("remove_attr")
    else
      var (_, fs2) := RemoveAttrOn(fs1, f.path, name);
      Ok((OK, fs2))
  }

  /** remove_attr already answers 0 for ENODATA and EACCES, so the Error
      branches cannot be reached: removal reports OK or ends the process,
      and the second call leaves the file system as the first left it. */
  lemma RemoveNeverError(fs: Fs, f: File)
    requires RemoveHashMetadata(fs, f).Ok?
    ensures RemoveHashMetadata(fs, f).value.0 == OK
    ensures RemoveHashMetadata(fs, f).value.1 == RemoveAttrOn(fs, f.path, AttrName(f.hashName)).1
  {
    RemoveIdempotent(fs, f.path, AttrName(f.hashName));
  }

  /** The access(2) mode: always R_OK, and W_OK when writing. */
  function AccessMode(write: bool): (amode: bv32)
    ensures amode & R_OK != 0
    ensures amode & W_OK != 0 <==> write
    ensures amode & !(R_OK | W_OK) == 0
  {
    R_OK | (if write then W_OK else 0)
  }

  /** is_accessible: whether access(2) grants the mode. */
  function IsAccessible(fs: Fs, f: File, write: bool): (ok: bool)
    ensures ok <==> f.path in fs.files && fs.files[f.path].readable && (write ==> fs.files[f.path].writable)
  {
    Access(fs, f.path, AccessMode(write)).Done?
  }

  /** The open flags the file is loaded with: fixed per system. */
  function LoadFlags(os: Os): (flags: bv32)
    ensures flags & O_NOATIME != 0 <==> os == Linux
    ensures flags & !O_NOATIME == O_RDONLY
  {
    match os
    case FreeBSD => O_RDONLY
    case Linux => O_RDONLY | O_NOATIME
  }

  /** load_file with given open flags: open, fstat, mmap the whole length;
      a failure at any step is no contents. */
  function LoadFile(fs: Fs, path: string, flags: bv32): (r: Option<seq<byte>>)
    ensures r.Some? <==> Open(fs, path, flags).Done? && |fs.files[path].data| > 0
    ensures r.Some? ==> r.value == fs.files[path].data
  {
    match Open(fs, path, flags)
    case Failed(_) => None
    case Done(_) =>
      match Stat(fs, path)
      case Failed(_) => None
      case Done(inode) =>
        match Mmap(fs, path, |inode.data|)
        case Failed(_) => None
        case Done(contents) => Some(contents)
  }

  /** HashFileContents as written: an unknown algorithm ends the process;
      a file that cannot be loaded has no digest. */
  function HashFileContents(os: Os, fs: Fs, dg: Digester, f: File): (r: Outcome<Option<seq<byte>>>)
    ensures r.Ok? <==> dg.Known(f.hashName)
    ensures r.Ok? ==> (r.value.Some? <==> Open(fs, f.path, LoadFlags(os)).Done? && |fs.files[f.path].data| > 0)
    ensures r.Ok? && r.value.Some? ==> r.value.value == dg.digest(f.hashName, fs.files[f.path].data)
    ensures r.Ok? && r.value.Some? && dg.Valid() ==> |r.value.value| == dg.sizes[f.hashName]
  {
    if !dg.Known(f.hashName) then Fatal("not found")
    else match LoadFile(fs, f.path, LoadFlags(os))
      case None => Ok(None)
      case Some(contents) => Ok(Some(dg.digest(f.hashName, contents)))
  }

  /** An empty file has no digest: mmap refuses a length of zero. */
  lemma EmptyFileNotHashed(os: Os, fs: Fs, dg: Digester, f: File)
    requires f.path in fs.files && fs.files[f.path].readable && fs.files[f.path].data == []
    requires dg.Known(f.hashName)
    ensures HashFileContents(os, fs, dg, f) == Ok(None)
  {
  }

  /** On Linux a readable file the user does not own has no digest: open(2)
      refuses O_NOATIME to anyone but the owner. */
  lemma ForeignFileNotHashed(fs: Fs, dg: Digester, f: File)
    requires f.path in fs.files && fs.files[f.path].readable && fs.files[f.path].owner != fs.euid
    requires dg.Known(f.hashName)
    ensures HashFileContents(Linux, fs, dg, f) == Ok(None)
  {
  }

  /** HashFileContents opening with open_flags and hashing an empty file as
      empty input. */
  function HashFileContentsFixed(os: Os, fs: Fs, dg: Digester, f: File): (r: Outcome<Option<seq<byte>>>)
    ensures dg.Known(f.hashName) && (os == FreeBSD || f.path in fs.files) ==> r.Ok?
    ensures r.Ok? ==> (r.value.Some? <==> f.path in fs.files && fs.files[f.path].readable)
    ensures r.Ok? && r.value.Some? ==> r.value.value == dg.digest(f.hashName, fs.files[f.path].data)
  {
    if !dg.Known(f.hashName) then Fatal("not found")
    else
      var flags :- Platform.OpenFlags(os, fs, f.path);
      match Open(fs, f.path, flags)
      case Failed(_) => Ok(None)
      case Done(_) =>
        Ok(Some(dg.digest(f.hashName, fs.files[f.path].data)))
  }

  /** The corrected function digests every readable file, agreeing with the
      earlier revision's HashFileContents. */
  lemma FixedAgreesWithFileHash(os: Os, fs: Fs, dg: Digester, f: File)
    requires f.path in fs.files && fs.files[f.path].readable && dg.Known(f.hashName)
    ensures HashFileContentsFixed(os, fs, dg, f).Ok?
    ensures HashFileContentsFixed(os, fs, dg, f).value
         == Some(FileHashes.HashFileContents(fs, dg, FileHashes.FileHash(f.path, f.hashName, [])).value.hash)
  {
  }
}

=== FILE: file_hash.dfy ===
/** FileHash (file_hash.cc): a file opened read-only, the name of a digest
    algorithm, and a digest that starts empty and is filled either from the
    file's stored attribute or by hashing its contents. Its attribute is
    "user.hash." followed by the algorithm name.

    The object also holds the open descriptor; the model names the file by
    its path instead, and every system call on the descriptor is the call on
    that path. */
module FileHashes {
  import opened Common
  import opened Store
  import opened Digests
  import Hex

  datatype FileHash = FileHash(fileName: string, hashName: string, hash: seq<byte>)

  /** The attribute that holds the digest for `hashName`. */
  function AttrName(hashName: string): (n: string)
    ensures |n| == |hashName| + 10 && n[..10] == "user.hash." && n[10..] == hashName
  {
    "user.hash." + hashName
  }

  /** Different algorithms are stored under different attributes. */
  lemma AttrNameInjective(a: string, b: string)
    ensures AttrName(a) == AttrName(b) ==> a == b
  {
  }

  /** The stored digest as ReadFileHashXattr leaves it: the attribute's bytes,
      or nothing when there is no attribute. */
  function Stored(fs: Fs, path: string, hashName: string): seq<byte> {
    match Slot(fs, path, AttrName(hashName))
    case Some(v) => v
    case None => []
  }

  /** The constructor: opens the file read-only, or ends the process. */
  function Create(fs: Fs, fileName: string, hashName: string): (r: Outcome<FileHash>)
    ensures r.Ok? <==> fileName in fs.files && fs.files[fileName].readable
    ensures r.Ok? ==> r.value == FileHash(fileName, hashName, [])
  {
    match Open(fs, fileName, O_RDONLY)
    case Failed(_) => Fatal("failed to open " + fileName)
    case Done(_) => Ok(FileHash(fileName, hashName, []))
  }

  /** ReadFileHashXattr given the replies of its two fgetxattr calls: first
      the size, then the value read into a buffer of that size. A missing
      attribute leaves the digest as it is; any other error on the first call
      ends the process; so does a second reply of another length. The check
      that the second call failed tests an unsigned variable for being
      negative and can never fire, so a failed second call ends the process
      through the size comparison instead. */
  function ReadXattrReplies(fh: FileHash, size: SysResult<nat>, read: SysResult<seq<byte>>): (r: Outcome<FileHash>)
    ensures size.Failed? ==> (r.Ok? <==> size.errno == ENODATA)
    ensures size.Failed? && r.Ok? ==> r.value == fh
    ensures size.Done? ==> (r.Ok? <==> read.Done? && |read.value| == size.value)
    ensures size.Done? && r.Ok? ==> r.value == fh.(hash := read.value)
  {
    match size
    case Failed(e) => if e == ENODATA then Ok(fh) else Fatal("getxattr")
    case Done(expected) =>
      // A failed call's -1 reads as SIZE_MAX, which no size equals.
      if read.Failed? || |read.value| != expected then Fatal("attribute size seemed to change")
      else Ok(fh.(hash := read.value))
  }

  /** ReadFileHashXattr against the model. The file cannot change between the
      two calls here, so the size check never fires. */
  function ReadFileHashXattr(fs: Fs, fh: FileHash): (r: Outcome<FileHash>)
    ensures r.Ok? <==> Reachable(fs, fh.fileName) && fs.files[fh.fileName].readable
    ensures r.Ok? ==> r.value.fileName == fh.fileName && r.value.hashName == fh.hashName
    ensures r.Ok? && Slot(fs, fh.fileName, AttrName(fh.hashName)).Some? ==> r.value.hash == Stored(fs, fh.fileName, fh.hashName)
    ensures r.Ok? && Slot(fs, fh.fileName, AttrName(fh.hashName)).None? ==> r.value == fh
  {
    var name := AttrName(fh.hashName);
    var first := GetXattr(fs, fh.fileName, name, 0);
    var size: SysResult<nat> := if first.Done? then Done(|first.value|) else Failed(first.errno);
    var second := if first.Done? then GetXattr(fs, fh.fileName, name, |first.value|) else Failed(NoError);
    ReadXattrReplies(fh, size, second)
  }

  /** HashFileContents: maps the whole file (a file of length zero is not
      mapped and hashes as empty input), looks the algorithm up, where an
      unknown name ends the process, and replaces the digest with the
      digest of the contents. */
  function HashFileContents(fs: Fs, dg: Digester, fh: FileHash): (r: Outcome<FileHash>)
    requires fh.fileName in fs.files
    ensures r.Ok? <==> dg.Known(fh.hashName)
    ensures r.Ok? ==> r.value == fh.(hash := dg.digest(fh.hashName, fs.files[fh.fileName].data))
    ensures r.Ok? && dg.Valid() ==> |r.value.hash| == dg.sizes[fh.hashName]
  {
    var contents := MmapContents(fs, fh.fileName);
    if !dg.Known(fh.hashName) then Fatal("Invalid digest name '" + fh.hashName + "'")
    else Ok(fh.(hash := dg.digest(fh.hashName, contents)))
  }

  /** Mmap: fstat for the length; a zero length yields no bytes without
      calling mmap. */
  function MmapContents(fs: Fs, path: string): (data: seq<byte>)
    requires path in fs.files
    ensures data == fs.files[path].data
  {
    var len := |fs.files[path].data|;
    if len == 0 then []
    else match Mmap(fs, path, len)
      case Done(bytes) => bytes
      case Failed(_) => assert false; []
  }

  /** A zero-length file is digested as empty input. */
  lemma EmptyFileDigest(fs: Fs, dg: Digester, fh: FileHash)
    requires fh.fileName in fs.files && fs.files[fh.fileName].data == []
    requires dg.Known(fh.hashName)
    ensures HashFileContents(fs, dg, fh) == Ok(fh.(hash := dg.digest(fh.hashName, [])))
  {
  }

  /** HashString: the digest in lowercase hex, two digits per byte, which
      reads back as the digest. */
  function HashString(fh: FileHash): (s: string)
    ensures |s| == 2 * |fh.hash|
    ensures Hex.Decode(s) == Some(fh.hash)
  {
    Hex.DecodeEncode(fh.hash);
    Hex.Encode(fh.hash)
  }

  /** operator==: the file name, then the algorithm, then the digest; the
      descriptor is not compared. */
  method Equals(a: FileHash, b: FileHash) returns (same: bool)
    ensures same <==> a.fileName == b.fileName && a.hashName == b.hashName && a.hash == b.hash
  {
    if a.fileName != b.fileName {
      return false;
    }
    if a.hashName != b.hashName {
      return false;
    }
    if a.hash != b.hash {
      return false;
    }
    return true;
  }

  /** SetHashXattr: 0 when the digest is stored, 1 when permission is
      refused (nothing changes), the end of the process on any other
      error. */
  function SetHashXattr(fs: Fs, fh: FileHash): (r: Outcome<(int, Fs)>)
    ensures r.Ok? <==> Reachable(fs, fh.fileName)
    ensures r.Ok? ==> r.value.0 in {0, 1}
    ensures r.Ok? ==> (r.value.0 == 0 <==> fs.files[fh.fileName].writable)
    ensures r.Ok? && r.value.0 == 0 ==> Stored(r.value.1, fh.fileName, fh.hashName) == fh.hash
                                        && r.value.1 == Written(fs, fh.fileName, AttrName(fh.hashName), fh.hash)
    ensures r.Ok? && r.value.0 == 1 ==> r.value.1 == fs
  {
    match SetXattr(fs, fh.fileName, AttrName(fh.hashName), fh.hash)
    case Done(fs') => Ok((0, fs'))
    case Failed(e) => if e != EACCES then Fatal("fsetxattr") else Ok((1, fs))
  }

  /** ClearHashXattr: 0 when the attribute is removed, 1 when it was absent
      or permission is refused, the end of the process on any other error. */
  function ClearHashXattr(fs: Fs, fh: FileHash): (r: Outcome<(int, Fs)>)
    ensures r.Ok? <==> Reachable(fs, fh.fileName)
    ensures r.Ok? ==> r.value.0 in {0, 1}
    ensures r.Ok? ==> (r.value.0 == 0 <==> fs.files[fh.fileName].writable && Slot(fs, fh.fileName, AttrName(fh.hashName)).Some?)
    ensures r.Ok? && fs.files[fh.fileName].writable ==> Slot(r.value.1, fh.fileName, AttrName(fh.hashName)).None?
    ensures r.Ok? && fs.files[fh.fileName].writable ==> r.value.1 == Erased(fs, fh.fileName, AttrName(fh.hashName))
    ensures r.Ok? && !fs.files[fh.fileName].writable ==> r.value.1 == fs
  {
    match RemoveXattr(fs, fh.fileName, AttrName(fh.hashName))
    case Done(fs') => Ok((0, fs'))
    case Failed(e) =>
      if e == ENODATA then Ok((1, fs))
      else if e == EACCES then Ok((1, fs))
      else Fatal("fremovexattr")
  }
}

=== FILE: hasher.dfy ===
/** The four per-file operations, the worker loop and `main` (hasher.cc).

    Each operation opens the file as a FileHash, reads its stored digest and
    decides a HashStatus; it may hash the contents, write or remove the
    attribute, and print a line. Workers OR the statuses into a code; `main`
    ORs the workers' codes and masks the result into the exit status. */
module Hasher {
  import opened Common
  import opened Store
  import opened Digests
  import opened Status
  import opened Sources
  import opened FileHashes
  import Hex

  /** What one operation on one file leaves: its status, the file system
      after it, and the lines it printed. */
  datatype Step = Step(status: HashStatus, fs: Fs, out: seq<string>)

  /** A file that can be opened for reading and whose attribute calls work:
      no step on it ends the process for want of either. */
  predicate Healthy(fs: Fs, path: string) {
    Reachable(fs, path) && fs.files[path].readable
  }

  /** Only extended attributes differ: contents, owners, permissions and
      the set of files are as they were. */
  ghost predicate OnlyAttrsChange(fs: Fs, fs': Fs) {
    && fs'.euid == fs.euid
    && fs'.files.Keys == fs.files.Keys
    && forall p :: p in fs.files ==> fs'.files[p].(attrs := fs.files[p].attrs) == fs.files[p]
  }

  /** The line printed for a digest: "<hex>  <file name>". */
  function HashLine(hash: seq<byte>, fname: string): string {
    Hex.Encode(hash) + "  " + fname
  }

  /** ApplyHash: a file that already has a digest is skipped with ERROR;
      otherwise its contents are hashed, the digest stored and printed, and
      the answer is OK whether or not the store succeeded. */
  function ApplyHash(fs: Fs, dg: Digester, fname: string, alg: string): (r: Outcome<Step>)
    ensures r.Fatal? <==> !Healthy(fs, fname) || (Stored(fs, fname, alg) == [] && !dg.Known(alg))
    ensures r.Ok? ==> OnlyAttrsChange(fs, r.value.fs)
    ensures r.Ok? && Stored(fs, fname, alg) != [] ==> r.value == Step(ERROR, fs, ["skipping " + fname + " (already has hash)"])
    ensures r.Ok? && Stored(fs, fname, alg) == [] ==> r.value.status == OK
    ensures r.Ok? && Stored(fs, fname, alg) == [] ==> r.value.out == [HashLine(dg.digest(alg, fs.files[fname].data), fname)]
    ensures r.Ok? && Stored(fs, fname, alg) == [] && fs.files[fname].writable
            ==> Stored(r.value.fs, fname, alg) == dg.digest(alg, fs.files[fname].data)
    ensures r.Ok? && Stored(fs, fname, alg) == [] && fs.files[fname].writable
            ==> r.value.fs == Written(fs, fname, AttrName(alg), dg.digest(alg, fs.files[fname].data))
    ensures r.Ok? && !fs.files[fname].writable ==> r.value.fs == fs
  {
    var handle :- Create(fs, fname, alg);
    var file :- ReadFileHashXattr(fs, handle);
    if file.hash != [] then Ok(Step(ERROR, fs, ["skipping " + fname + " (already has hash)"]))
    else
      var hashed :- HashFileContents(fs, dg, file);
      // The attribute calls already succeeded on this file, so storing
      // cannot end the process; its 0-or-1 answer is dropped.
      match SetHashXattr(fs, hashed)
      case Fatal(d) => Fatal(d)
      case Ok(written) => Ok(Step(OK, written.1, [HashString(hashed) + "  " + fname]))
  }

  /** CheckHash: a file without a digest is skipped with ERROR and not
      hashed; otherwise the stored digest is compared with a fresh one, OK
      when they are equal and MISMATCH when not. Nothing is written. */
  function CheckHash(fs: Fs, dg: Digester, fname: string, alg: string): (r: Outcome<Step>)
    ensures r.Fatal? <==> !Healthy(fs, fname) || (Stored(fs, fname, alg) != [] && !dg.Known(alg))
    ensures r.Ok? ==> r.value.fs == fs
    ensures r.Ok? ==> (r.value.status == ERROR <==> Stored(fs, fname, alg) == [])
    ensures r.Ok? ==> (r.value.status == OK <==> (Stored(fs, fname, alg) != []
                                                 && Stored(fs, fname, alg) == dg.digest(alg, fs.files[fname].data)))
    ensures r.Ok? && r.value.status == ERROR ==> r.value.out == ["skipping " + fname + " (missing hash)"]
  {
    var handle :- Create(fs, fname, alg);
    var file :- ReadFileHashXattr(fs, handle);
    if file.hash == [] then Ok(Step(ERROR, fs, ["skipping " + fname + " (missing hash)"]))
    else
      var rawhash := file.hash;
      var actual :- HashFileContents(fs, dg, file);
      if actual.hash == rawhash then Ok(Step(OK, fs, [fname + ": ok"]))
      else Ok(Step(MISMATCH, fs, [fname + ": FAILED"]))
  }

  /** PrintHash: ERROR and silence for a file without a digest, otherwise OK
      and the stored digest's line. */
  function PrintHash(fs: Fs, fname: string, alg: string): (r: Outcome<Step>)
    ensures r.Fatal? <==> !Healthy(fs, fname)
    ensures r.Ok? ==> r.value.fs == fs
    ensures r.Ok? ==> (r.value.status == ERROR <==> Stored(fs, fname, alg) == [])
    ensures r.Ok? && r.value.status == ERROR ==> r.value.out == []
    ensures r.Ok? && r.value.status != ERROR ==> r.value.status == OK && r.value.out == [HashLine(Stored(fs, fname, alg), fname)]
  {
    var handle :- Create(fs, fname, alg);
    var file :- ReadFileHashXattr(fs, handle);
    if file.hash == [] then Ok(Step(ERROR, fs, []))
    else Ok(Step(OK, fs, [HashString(file) + "  " + fname]))
  }

  /** ResetHash: removes the stored digest and answers OK, whatever the
      removal reported; the digest stays only when permission was refused. */
  function ResetHash(fs: Fs, fname: string, alg: string): (r: Outcome<Step>)
    ensures r.Fatal? <==> !Healthy(fs, fname)
    ensures r.Ok? ==> r.value.status == OK && OnlyAttrsChange(fs, r.value.fs)
    ensures r.Ok? && fs.files[fname].writable ==> Slot(r.value.fs, fname, AttrName(alg)).None?
    ensures r.Ok? && fs.files[fname].writable ==> r.value.fs == Erased(fs, fname, AttrName(alg))
    ensures r.Ok? && !fs.files[fname].writable ==> r.value.fs == fs
  {
    var handle :- Create(fs, fname, alg);
    var cleared :- ClearHashXattr(fs, handle);
    Ok(Step(OK, cleared.1, ["Resetting hash on " + fname]))
  }

  /** The operation the command line selected. */
  datatype Mode = Apply | Check | Print | Reset

  function Task(mode: Mode, fs: Fs, dg: Digester, fname: string, alg: string): (r: Outcome<Step>)
    ensures Healthy(fs, fname) && dg.Known(alg) ==> r.Ok?
    ensures r.Ok? ==> OnlyAttrsChange(fs, r.value.fs)
  {
    match mode
    case Apply => ApplyHash(fs, dg, fname, alg)
    case Check => CheckHash(fs, dg, fname, alg)
    case Print => PrintHash(fs, fname, alg)
    case Reset => ResetHash(fs, fname, alg)
  }

  /** What running the task on a list of paths leaves: one status per path,
      the file system after the last, and every line printed, in order. */
  datatype Trace = Trace(statuses: seq<HashStatus>, fs: Fs, out: seq<string>)

  /** `first`, then `rest`, which started from the file system `first` left. */
  function Then(first: Trace, rest: Outcome<Trace>): (r: Outcome<Trace>)
    ensures r.Ok? <==> rest.Ok?
    ensures r.Ok? ==> r.value.fs == rest.value.fs
  {
    match rest
    case Fatal(d) => Fatal(d)
    case Ok(t) => Ok(Trace(first.statuses + t.statuses, t.fs, first.out + t.out))
  }

  /** The reference for what workers do: the task run on each path in turn,
      each from the file system the one before left, stopping the process
      at the first task that does. */
  function Tasks(mode: Mode, fs: Fs, dg: Digester, alg: string, paths: seq<string>): (r: Outcome<Trace>)
    decreases |paths|
  {
    if paths == [] then Ok(Trace([], fs, []))
    else
      match Task(mode, fs, dg, paths[0], alg)
      case Fatal(d) => Fatal(d)
      case Ok(step) => Then(Trace([step.status], step.fs, step.out), Tasks(mode, step.fs, dg, alg, paths[1..]))
  }

  /** Tasks on a list of healthy files with a known algorithm never end the
      process; tasks that do not end it leave one status per path and change
      only attributes. */
  lemma {:induction false} TasksShape(mode: Mode, fs: Fs, dg: Digester, alg: string, paths: seq<string>)
    ensures AllHealthy(fs, paths) && dg.Known(alg) ==> Tasks(mode, fs, dg, alg, paths).Ok?
    ensures Tasks(mode, fs, dg, alg, paths).Ok? ==>
              |Tasks(mode, fs, dg, alg, paths).value.statuses| == |paths|
              && OnlyAttrsChange(fs, Tasks(mode, fs, dg, alg, paths).value.fs)
    decreases |paths|
  {
    if paths != [] {
      TasksCons(mode, fs, dg, alg, paths[0], paths[1..]);
      assert paths == [paths[0]] + paths[1..];
      if Task(mode, fs, dg, paths[0], alg).Ok? {
        var step := Task(mode, fs, dg, paths[0], alg).value;
        TasksShape(mode, step.fs, dg, alg, paths[1..]);
        HealthyKept(fs, step.fs, paths[1..]);
        HealthyHead(fs, paths[0], paths[1..]);
        var rest := Tasks(mode, step.fs, dg, alg, paths[1..]);
        if rest.Ok? {
          OnlyAttrsChangeTrans(fs, step.fs, rest.value.fs);
        }
      } else {
        HealthyHead(fs, paths[0], paths[1..]);
      }
    }
  }

  /** Running the task on a path and then on more paths. */
  lemma TasksCons(mode: Mode, fs: Fs, dg: Digester, alg: string, cur: string, ps: seq<string>)
    ensures Task(mode, fs, dg, cur, alg).Fatal? ==> Tasks(mode, fs, dg, alg, [cur] + ps).Fatal?
    ensures Task(mode, fs, dg, cur, alg).Ok? ==>
              var step := Task(mode, fs, dg, cur, alg).value;
              Tasks(mode, fs, dg, alg, [cur] + ps)
              == Then(Trace([step.status], step.fs, step.out), Tasks(mode, step.fs, dg, alg, ps))
  {
    assert ([cur] + ps)[0] == cur && ([cur] + ps)[1..] == ps;
  }

  /** Running the task on `a + b` is running it on `a`, then on `b` from
      where `a` left the file system. */
  lemma {:induction false} TasksAppend(mode: Mode, fs: Fs, dg: Digester, alg: string, a: seq<string>, b: seq<string>)
    ensures Tasks(mode, fs, dg, alg, a).Fatal? ==> Tasks(mode, fs, dg, alg, a + b).Fatal?
    ensures Tasks(mode, fs, dg, alg, a).Ok? ==>
              var t := Tasks(mode, fs, dg, alg, a).value;
              Tasks(mode, fs, dg, alg, a + b) == Then(t, Tasks(mode, t.fs, dg, alg, b))
    decreases |a|
  {
    if a == [] {
      assert a + b == b;
      match Tasks(mode, fs, dg, alg, b)
      case Fatal(_) =>
      case Ok(t) => assert [] + t.statuses == t.statuses && [] + t.out == t.out;
    } else {
      TasksCons(mode, fs, dg, alg, a[0], a[1..] + b);
      assert a + b == [a[0]] + (a[1..] + b);
      assert a == [a[0]] + a[1..];
      TasksCons(mode, fs, dg, alg, a[0], a[1..]);
      if Task(mode, fs, dg, a[0], alg).Ok? {
        var step := Task(mode, fs, dg, a[0], alg).value;
        TasksAppend(mode, step.fs, dg, alg, a[1..], b);
        var tail := Tasks(mode, step.fs, dg, alg, a[1..]);
        if tail.Ok? {
          ThenAssoc(Trace([step.status], step.fs, step.out), tail.value, Tasks(mode, tail.value.fs, dg, alg, b));
        }
      }
    }
  }

  lemma ThenAssoc(a: Trace, b: Trace, rest: Outcome<Trace>)
    ensures Then(a, Then(b, rest)) == Then(Then(a, Ok(b)).value, rest)
  {
    match rest
    case Fatal(_) =>
    case Ok(t) =>
      assert a.statuses + (b.statuses + t.statuses) == (a.statuses + b.statuses) + t.statuses;
      assert a.out + (b.out + t.out) == (a.out + b.out) + t.out;
  }

  /** Apply then Check on an unchanged file whose digest was stored reports
      OK. */
  lemma ApplyThenCheck(fs: Fs, dg: Digester, fname: string, alg: string)
    requires dg.Valid()
    requires ApplyHash(fs, dg, fname, alg).Ok?
    requires ApplyHash(fs, dg, fname, alg).value.status == OK
    requires fs.files[fname].writable
    ensures var fs' := ApplyHash(fs, dg, fname, alg).value.fs;
            CheckHash(fs', dg, fname, alg) == Ok(Step(OK, fs', [fname + ": ok"]))
  {
    var fs' := ApplyHash(fs, dg, fname, alg).value.fs;
    assert fs'.files[fname].data == fs.files[fname].data;
    assert |dg.digest(alg, fs.files[fname].data)| > 0;
  }

  /** A file that already has a digest is neither hashed nor written: the
      answer is the same whatever the digest function, even for an unknown
      algorithm. */
  lemma ApplySkipsHashed(fs: Fs, dg1: Digester, dg2: Digester, fname: string, alg: string)
    requires Healthy(fs, fname) && Stored(fs, fname, alg) != []
    ensures ApplyHash(fs, dg1, fname, alg) == ApplyHash(fs, dg2, fname, alg)
    ensures ApplyHash(fs, dg1, fname, alg).Ok? && ApplyHash(fs, dg1, fname, alg).value.fs == fs
  {
  }

  /** A file without a digest is not hashed by CheckHash: the answer is the
      same whatever the digest function, even for an unknown algorithm. */
  lemma CheckSkipsMissing(fs: Fs, dg1: Digester, dg2: Digester, fname: string, alg: string)
    requires Healthy(fs, fname) && Stored(fs, fname, alg) == []
    ensures CheckHash(fs, dg1, fname, alg) == CheckHash(fs, dg2, fname, alg)
    ensures CheckHash(fs, dg1, fname, alg).Ok? && CheckHash(fs, dg1, fname, alg).value.status == ERROR
  {
  }

  /** After a reset that was allowed to write, Print finds no digest. */
  lemma ResetThenPrint(fs: Fs, fname: string, alg: string)
    requires ResetHash(fs, fname, alg).Ok? && fs.files[fname].writable
    ensures var fs' := ResetHash(fs, fname, alg).value.fs;
            PrintHash(fs', fname, alg) == Ok(Step(ERROR, fs', []))
  {
  }

  /** Whether every path names a healthy file. */
  predicate AllHealthy(fs: Fs, paths: seq<string>) {
    forall i :: 0 <= i < |paths| ==> Healthy(fs, paths[i])
  }

  lemma OnlyAttrsChangeTrans(fs: Fs, fs': Fs, fs'': Fs)
    requires OnlyAttrsChange(fs, fs') && OnlyAttrsChange(fs', fs'')
    ensures OnlyAttrsChange(fs, fs'')
  {
    forall p | p in fs.files
      ensures fs''.files[p].(attrs := fs.files[p].attrs) == fs.files[p]
    {
      assert fs'.files[p].(attrs := fs.files[p].attrs) == fs.files[p];
      assert fs''.files[p].(attrs := fs'.files[p].attrs) == fs'.files[p];
    }
  }

  lemma HealthyKept(fs: Fs, fs': Fs, paths: seq<string>)
    requires OnlyAttrsChange(fs, fs')
    ensures AllHealthy(fs, paths) ==> AllHealthy(fs', paths)
  {
    forall i | 0 <= i < |paths| && AllHealthy(fs, paths)
      ensures Healthy(fs', paths[i])
    {
      var p := paths[i];
      assert fs'.files[p].(attrs := fs.files[p].attrs) == fs.files[p];
    }
  }

  /** What a worker leaves: its code, the file system, the source, the lines
      printed, the paths it handled and their statuses in order. */
  datatype Drained = Drained(
    code: bv32,
    fs: Fs,
    src: Source,
    out: seq<string>,
    handled: seq<string>,
    statuses: seq<HashStatus>)

  /** Rest(a) is what is left of Rest(b) after some entries were taken. */
  predicate IsSuffix(a: seq<string>, b: seq<string>) {
    |a| <= |b| && a == b[|b| - |a|..]
  }

  /** What a worker that started on `src` with code `ret` promises when it
      stops: it handled exactly the paths pending before the first blank, and
      its statuses, file system and output are those of running the task on
      each of them in turn; its code is `ret` with each status ORed in; the
      source has lost those paths and the blank; only attributes changed. */
  ghost predicate Drains(src: Source, fs: Fs, dg: Digester, mode: Mode, alg: string, ret: bv32, d: Drained)
    requires src.Ready()
  {
    && d.handled == Pending(src)
    && Tasks(mode, fs, dg, alg, d.handled) == Ok(Trace(d.statuses, d.fs, d.out))
    && |d.statuses| == |d.handled|
    && d.code == Accumulate(ret, d.statuses)
    && d.src.Ready() && Rest(d.src) == After(Rest(src))
    && OnlyAttrsChange(fs, d.fs)
  }

  /** Worker: takes paths until `GetNext` says "", runs the task on each,
      and ORs each status into the code it started with. It ends the process
      exactly when one of the tasks does. */
  function Worker(src: Source, fs: Fs, dg: Digester, mode: Mode, alg: string, ret: bv32): (r: Outcome<Drained>)
    requires src.Ready()
    decreases src.Remaining()
    ensures r.Ok? <==> Tasks(mode, fs, dg, alg, Pending(src)).Ok?
    ensures AllHealthy(fs, Pending(src)) && dg.Known(alg) ==> r.Ok?
    ensures r.Ok? ==> Drains(src, fs, dg, mode, alg, ret, r.value)
  {
    GetNextStep(src);
    var (cur, next) := GetNext(src);
    if cur == "" then Ok(Drained(ret, fs, next, [], [], []))
    else
      HealthyHead(fs, cur, Pending(next));
      TasksCons(mode, fs, dg, alg, cur, Pending(next));
      match Task(mode, fs, dg, cur, alg)
      case Fatal(d) => Fatal(d)
      case Ok(step) =>
        HealthyKept(fs, step.fs, Pending(next));
        Continue(src, cur, next, fs, dg, mode, alg, step, ret,
                 Worker(next, step.fs, dg, mode, alg, Or(ret, Code(step.status))))
  }

  /** A worker that took `cur` from `src`, ran the task on it and then ran
      the rest of its loop from `next`, with outcome `rest`: the two parts
      joined keep the promises the rest kept, now counted from `src`. */
  function Continue(src: Source, cur: string, next: Source, fs: Fs, dg: Digester, mode: Mode, alg: string,
                    step: Step, ret: bv32, rest: Outcome<Drained>): (r: Outcome<Drained>)
    requires src.Ready() && next.Ready()
    requires Rest(src) != [] && cur == Rest(src)[0] && cur != "" && Rest(next) == Rest(src)[1..]
    requires Pending(src) == [cur] + Pending(next)
    requires Task(mode, fs, dg, cur, alg) == Ok(step)
    requires OnlyAttrsChange(fs, step.fs)
    requires rest.Ok? <==> Tasks(mode, step.fs, dg, alg, Pending(next)).Ok?
    requires rest.Ok? ==> Drains(next, step.fs, dg, mode, alg, Or(ret, Code(step.status)), rest.value)
    ensures r.Ok? <==> Tasks(mode, fs, dg, alg, Pending(src)).Ok?
    ensures r.Ok? ==> Drains(src, fs, dg, mode, alg, ret, r.value)
  {
    TasksCons(mode, fs, dg, alg, cur, Pending(next));
    match rest
    case Fatal(d) => Fatal(d)
    case Ok(d) =>
      WorkerKeeps(cur, Rest(src), Rest(next), Rest(d.src), Pending(src), Pending(next), fs, step, d, ret);
      Ok(Prepend(cur, step, d))
  }

  /** A path and its step in front of what the rest of a worker did. */
  function Prepend(cur: string, step: Step, rest: Drained): Drained {
    Drained(rest.code, rest.fs, rest.src, step.out + rest.out, [cur] + rest.handled, [step.status] + rest.statuses)
  }

  /** One more path in front of what the rest of a worker did keeps the
      worker's promises. `rs`, `rn` and `rr` are what the source held before
      the path was taken, after it and after the rest; `ps` and `pn` are the
      paths pending before and after it. */
  lemma WorkerKeeps(cur: string, rs: seq<string>, rn: seq<string>, rr: seq<string>, ps: seq<string>, pn: seq<string>,
                    fs: Fs, step: Step, rest: Drained, ret: bv32)
    requires rs != [] && cur == rs[0] && cur != "" && rn == rs[1..] && ps == [cur] + pn
    requires rr == After(rn)
    requires rest.handled == pn && |rest.statuses| == |rest.handled|
    requires rest.code == Accumulate(Or(ret, Code(step.status)), rest.statuses)
    requires OnlyAttrsChange(fs, step.fs) && OnlyAttrsChange(step.fs, rest.fs)
    ensures var d := Prepend(cur, step, rest);
      && d.handled == ps && |d.statuses| == |d.handled|
      && d.code == Accumulate(ret, d.statuses)
      && rr == After(rs)
      && OnlyAttrsChange(fs, d.fs)
      && Then(Trace([step.status], step.fs, step.out), Ok(Trace(rest.statuses, rest.fs, rest.out)))
         == Ok(Trace(d.statuses, d.fs, d.out))
  {
    OnlyAttrsChangeTrans(fs, step.fs, rest.fs);
    AccumulateCons(ret, step.status, rest.statuses);
  }

  /** What the workers of `main` leave: their codes, and everything they
      handled and printed in the order they ran. */
  datatype Joined = Joined(
    codes: seq<bv32>,
    fs: Fs,
    src: Source,
    out: seq<string>,
    handled: seq<string>,
    perWorker: seq<seq<HashStatus>>)

  /** `count` workers sharing one source, each with a code of 0. They are run
      one after another, which is one of the schedules the threads allow:
      each takes the paths up to the next blank and the blank itself, so
      together they handle `Segments(Rest(src), count)`, and their statuses,
      file system and output are those of running the task on each of those
      paths in turn. */
  function RunWorkers(count: nat, src: Source, fs: Fs, dg: Digester, mode: Mode, alg: string): (r: Outcome<Joined>)
    requires src.Ready()
    decreases count, 1
    ensures r.Ok? <==> Tasks(mode, fs, dg, alg, Segments(Rest(src), count)).Ok?
    ensures AllHealthy(fs, Rest(src)) && dg.Known(alg) ==> r.Ok?
    ensures r.Ok? ==> r.value.handled == Segments(Rest(src), count)
    ensures r.Ok? ==> Tasks(mode, fs, dg, alg, r.value.handled) == Ok(Trace(Concat(r.value.perWorker), r.value.fs, r.value.out))
    ensures r.Ok? ==> |r.value.codes| == count && r.value.codes == Folds(r.value.perWorker)
    ensures r.Ok? ==> |Concat(r.value.perWorker)| == |r.value.handled|
    ensures r.Ok? ==> r.value.src.Ready() && IsSuffix(Rest(r.value.src), Rest(src))
    ensures r.Ok? ==> OnlyAttrsChange(fs, r.value.fs)
  {
    if count == 0 then Ok(Joined([], fs, src, [], [], []))
    else
      PendingHealthy(fs, src);
      TasksAppend(mode, fs, dg, alg, Pending(src), Segments(After(Rest(src)), count - 1));
      match Worker(src, fs, dg, mode, alg, 0)
      case Fatal(d) => Fatal(d)
      case Ok(first) =>
        AccumulateFromZero(first.statuses);
        RunOthers(count, src, fs, first, dg, mode, alg)
  }

  /** The workers after the first, which start where it stopped. */
  function RunOthers(count: nat, src: Source, fs: Fs, first: Drained, dg: Digester, mode: Mode, alg: string): (r: Outcome<Joined>)
    requires count > 0 && src.Ready() && first.src.Ready()
    requires first.handled == Pending(src) && |first.statuses| == |first.handled|
    requires Tasks(mode, fs, dg, alg, first.handled) == Ok(Trace(first.statuses, first.fs, first.out))
    requires first.code == Fold(first.statuses)
    requires Rest(first.src) == After(Rest(src))
    requires OnlyAttrsChange(fs, first.fs)
    decreases count, 0
    ensures r.Ok? <==> Tasks(mode, fs, dg, alg, Segments(Rest(src), count)).Ok?
    ensures AllHealthy(fs, Rest(src)) && dg.Known(alg) ==> r.Ok?
    ensures r.Ok? ==> r.value.handled == Segments(Rest(src), count)
    ensures r.Ok? ==> Tasks(mode, fs, dg, alg, r.value.handled) == Ok(Trace(Concat(r.value.perWorker), r.value.fs, r.value.out))
    ensures r.Ok? ==> |r.value.codes| == count && r.value.codes == Folds(r.value.perWorker)
    ensures r.Ok? ==> |Concat(r.value.perWorker)| == |r.value.handled|
    ensures r.Ok? ==> r.value.src.Ready() && IsSuffix(Rest(r.value.src), Rest(src))
    ensures r.Ok? ==> OnlyAttrsChange(fs, r.value.fs)
  {
    AfterSuffix(Rest(src));
    SuffixHealthy(fs, first.fs, Rest(first.src), Rest(src));
    TasksAppend(mode, fs, dg, alg, first.handled, Segments(Rest(first.src), count - 1));
    match RunWorkers(count - 1, first.src, first.fs, dg, mode, alg)
    case Fatal(d) => Fatal(d)
    case Ok(others) =>
      JoinKeeps(count, Rest(src), Rest(first.src), Rest(others.src), fs, first, others);
      Ok(Join(first, others))
  }

  /** The first worker's results followed by the others'. */
  function Join(first: Drained, others: Joined): Joined {
    Joined([first.code] + others.codes, others.fs, others.src, first.out + others.out,
           first.handled + others.handled, [first.statuses] + others.perWorker)
  }

  /** Putting the first worker in front of the others keeps what each
      promised: one code per worker, one status per handled path, a source
      further along, and only attributes changed. `rs`, `rf` and `ro` are
      what the source held before the first worker, after it and after the
      others. */
  lemma JoinKeeps(count: nat, rs: seq<string>, rf: seq<string>, ro: seq<string>, fs: Fs, first: Drained, others: Joined)
    requires count > 0
    requires first.handled == UntilBlank(rs) && |first.statuses| == |first.handled|
    requires first.code == Fold(first.statuses)
    requires rf == After(rs)
    requires OnlyAttrsChange(fs, first.fs)
    requires |others.codes| == count - 1 && others.codes == Folds(others.perWorker)
    requires |Concat(others.perWorker)| == |others.handled|
    requires IsSuffix(ro, rf)
    requires others.handled == Segments(rf, count - 1)
    requires OnlyAttrsChange(first.fs, others.fs)
    ensures var j := Join(first, others);
      && |j.codes| == count && j.codes == Folds(j.perWorker)
      && |Concat(j.perWorker)| == |j.handled|
      && Concat(j.perWorker) == first.statuses + Concat(others.perWorker)
      && IsSuffix(ro, rs)
      && j.handled == Segments(rs, count)
      && OnlyAttrsChange(fs, j.fs)
  {
    AfterSuffix(rs);
    OnlyAttrsChangeTrans(fs, first.fs, others.fs);
    ConcatCons(first.statuses, others.perWorker);
    SuffixTrans(ro, rf, rs);
    FoldsCons(first.statuses, others.perWorker);
  }

  /** What the source holds after the first blank is a suffix of what it
      held. */
  lemma AfterSuffix(xs: seq<string>)
    ensures IsSuffix(After(xs), xs)
  {
    if |UntilBlank(xs)| < |xs| {
      assert xs == UntilBlank(xs) + [""] + After(xs);
    }
  }

  lemma FoldsCons(x: seq<HashStatus>, ws: seq<seq<HashStatus>>)
    ensures Folds([x] + ws) == [Fold(x)] + Folds(ws)
  {
    var l, r := Folds([x] + ws), [Fold(x)] + Folds(ws);
    assert |l| == |r|;
    forall i | 0 <= i < |l| ensures l[i] == r[i] {
      if i > 0 { assert ([x] + ws)[i] == ws[i - 1]; }
    }
  }

  lemma HealthyHead(fs: Fs, p: string, ps: seq<string>)
    ensures AllHealthy(fs, [p] + ps) ==> Healthy(fs, p) && AllHealthy(fs, ps)
  {
    if AllHealthy(fs, [p] + ps) {
      assert Healthy(fs, ([p] + ps)[0]);
      forall i | 0 <= i < |ps| ensures Healthy(fs, ps[i]) {
        assert ps[i] == ([p] + ps)[i + 1];
      }
    }
  }

  lemma SuffixTrans(a: seq<string>, b: seq<string>, c: seq<string>)
    requires IsSuffix(a, b) && IsSuffix(b, c)
    ensures IsSuffix(a, c)
  {
    assert c[|c| - |b|..][|b| - |a|..] == c[|c| - |a|..];
  }

  lemma PendingHealthy(fs: Fs, src: Source)
    requires src.Ready()
    ensures AllHealthy(fs, Rest(src)) ==> AllHealthy(fs, Pending(src))
  {
    var p := Pending(src);
    assert p == Rest(src)[..|p|];
  }

  lemma SuffixHealthy(fs: Fs, fs': Fs, a: seq<string>, b: seq<string>)
    requires OnlyAttrsChange(fs, fs') && IsSuffix(a, b)
    ensures AllHealthy(fs, b) ==> AllHealthy(fs', a)
  {
    if AllHealthy(fs, b) {
      assert AllHealthy(fs, a) by {
        forall i | 0 <= i < |a| ensures Healthy(fs, a[i]) {
          assert a[i] == b[|b| - |a| + i];
        }
      }
      HealthyKept(fs, fs', a);
    }
  }

  lemma {:induction false} ConcatCons(x: seq<HashStatus>, ws: seq<seq<HashStatus>>)
    ensures Concat([x] + ws) == x + Concat(ws)
    decreases |ws|
  {
    if ws == [] {
      assert [x] + ws == [x];
      assert Concat([x][..0]) == [];
    } else {
      var last := |ws| - 1;
      assert ([x] + ws)[..|ws|] == [x] + ws[..last];
      ConcatCons(x, ws[..last]);
    }
  }

  /** The algorithm `main` passes to every worker. */
  const MainAlgorithm := "sha512"

  /** What `main` ends with: the exit status, the file system, the lines
      printed, the paths handled and their statuses. */
  datatype Finished = Finished(exit: bv32, fs: Fs, out: seq<string>, handled: seq<string>, statuses: seq<HashStatus>)

  /** main after argument parsing: no operation selected exits with 1;
      otherwise `threads` workers drain the argument list, the process ends
      exactly when a task on one of the paths they take does, and the OR of
      the statuses, masked by the reporting policy, is the exit status. */
  function Run(fs: Fs, dg: Digester, mode: Option<Mode>, args: seq<string>, threads: nat, reportAllErrors: bool): (r: Outcome<Finished>)
    ensures mode.None? ==> r == Ok(Finished(1, fs, [], [], []))
    ensures mode.Some? ==> (r.Ok? <==> Tasks(mode.value, fs, dg, MainAlgorithm, Segments(args, threads)).Ok?)
    ensures mode.Some? && AllHealthy(fs, args) && dg.Known(MainAlgorithm) ==> r.Ok?
    ensures r.Ok? && mode.Some? ==> r.value.handled == Segments(args, threads)
    ensures r.Ok? && mode.Some? ==>
              Tasks(mode.value, fs, dg, MainAlgorithm, r.value.handled) == Ok(Trace(r.value.statuses, r.value.fs, r.value.out))
    ensures r.Ok? && mode.Some? ==> r.value.exit == ExitStatus(Fold(r.value.statuses), reportAllErrors)
    ensures r.Ok? && mode.Some? ==> |r.value.statuses| == |r.value.handled|
    ensures r.Ok? && mode.Some? && threads > 0 && (forall i :: 0 <= i < |args| ==> args[i] != "") ==> r.value.handled == args
    ensures r.Ok? && mode.Some? && threads == 0 ==> r.value.handled == [] && r.value.exit == 0
  {
    match mode
    case None => Ok(Finished(1, fs, [], [], []))
    case Some(m) =>
      var src := FixedList(Cursor(args, 0));
      assert Rest(src) == args;
      var joined :- RunWorkers(threads, src, fs, dg, m, MainAlgorithm);
      ReduceFolds(joined.perWorker);
      NoBlanks(args);
      Ok(Finished(ExitStatus(Reduce(joined.codes), reportAllErrors), joined.fs, joined.out,
                  joined.handled, Concat(joined.perWorker)))
  }

  /** A list without "" is taken whole. */
  lemma NoBlanks(xs: seq<string>)
    ensures (forall i :: 0 <= i < |xs| ==> xs[i] != "") ==> UntilBlank(xs) == xs
  {
  }

  /** An empty argument stops the worker that claims it: with one thread,
      the arguments after it are never handled. */
  lemma EmptyArgumentStopsWorker(fs: Fs, dg: Digester, m: Mode, before: seq<string>, after: seq<string>, reportAllErrors: bool)
    requires forall i :: 0 <= i < |before| ==> before[i] != ""
    requires Run(fs, dg, Some(m), before + [""] + after, 1, reportAllErrors).Ok?
    ensures Run(fs, dg, Some(m), before + [""] + after, 1, reportAllErrors).value.handled == before
  {
    UntilBlankStops(before, after);
  }

  /** The worker that claims an empty argument also takes it, so a second
      worker goes on with the arguments after it, up to the next one. */
  lemma SecondWorkerPassesBlank(fs: Fs, dg: Digester, m: Mode, before: seq<string>, after: seq<string>, reportAllErrors: bool)
    requires forall i :: 0 <= i < |before| ==> before[i] != ""
    requires Run(fs, dg, Some(m), before + [""] + after, 2, reportAllErrors).Ok?
    ensures Run(fs, dg, Some(m), before + [""] + after, 2, reportAllErrors).value.handled == before + UntilBlank(after)
  {
    SegmentsPastBlank(before, after);
  }

  lemma SegmentsPastBlank(before: seq<string>, after: seq<string>)
    requires forall i :: 0 <= i < |before| ==> before[i] != ""
    ensures Segments(before + [""] + after, 2) == before + UntilBlank(after)
  {
    var args := before + [""] + after;
    UntilBlankStops(before, after);
    assert args == before + [""] + After(args);
    assert args[|before| + 1..] == after;
    assert (before + [""] + After(args))[|before| + 1..] == After(args);
    assert Segments(args, 2) == before + Segments(after, 1);
    assert Segments(after, 1) == UntilBlank(after) + Segments(After(after), 0);
  }

  lemma {:induction false} UntilBlankStops(before: seq<string>, after: seq<string>)
    requires forall i :: 0 <= i < |before| ==> before[i] != ""
    ensures UntilBlank(before + [""] + after) == before
  {
    if before != [] {
      assert (before + [""] + after)[1..] == before[1..] + [""] + after;
      UntilBlankStops(before[1..], after);
    }
  }
}

=== FILE: hex.dfy ===
/** The lowercase hexadecimal rendering of a digest: `HashString`
    (file_hash.cc:89-98) and `hash_to_string` (file.cc:146-154) print every
    byte with "%02x", two zero-padded lowercase digits per byte. */
module Hex {
  import opened Common

  predicate IsHexDigit(c: char) {
    '0' <= c <= '9' || 'a' <= c <= 'f'
  }

  /** The digit "%x" prints for a value below sixteen. */
  function Digit(n: int): (c: char)
    requires 0 <= n < 16
    ensures IsHexDigit(c)
  {
    if n < 10 then ('0' as int + n) as char else ('a' as int + n - 10) as char
  }

  /** Which digit shows which value: value n is the n-th character of the
      "%x" alphabet, so byte 0x00 prints as "00" and 0xff as "ff". */
  lemma DigitTable(n: int)
    requires 0 <= n < 16
    ensures Digit(n) == "0123456789abcdef"[n]
  {
  }

  /** The value of one lowercase hex digit: the inverse of `Digit`. */
  function DigitValue(c: char): (n: int)
    requires IsHexDigit(c)
    ensures 0 <= n < 16
    ensures Digit(n) == c
  {
    if c <= '9' then c as int - '0' as int else c as int - 'a' as int + 10
  }

  /** The two characters "%02x" prints for one byte: the high nibble first. */
  function Pair(b: byte): string {
    [Digit(b / 16), Digit(b % 16)]
  }

  /** The rendering of a whole digest. */
  function Encode(bytes: seq<byte>): (s: string)
    ensures |s| == 2 * |bytes|
    ensures forall k :: 0 <= k < |s| ==> IsHexDigit(s[k])
  {
    if bytes == [] then [] else Pair(bytes[0]) + Encode(bytes[1..])
  }

  /** Reads a rendering back: pairs of lowercase hex digits, high nibble first.
      An odd length or a character outside [0-9a-f] gives None. */
  function Decode(s: string): (r: Option<seq<byte>>)
    ensures r.Some? ==> 2 * |r.value| == |s|
  {
    if s == [] then Some([])
    else if |s| == 1 || !IsHexDigit(s[0]) || !IsHexDigit(s[1]) then None
    else match Decode(s[2..])
      case None => None
      case Some(rest) => Some([DigitValue(s[0]) * 16 + DigitValue(s[1])] + rest)
  }

  /** Character 2i is the high nibble of byte i, character 2i+1 its low nibble. */
  lemma {:induction false} EncodeAt(bytes: seq<byte>, i: nat)
    requires i < |bytes|
    ensures Encode(bytes)[2 * i] == Digit(bytes[i] / 16)
    ensures Encode(bytes)[2 * i + 1] == Digit(bytes[i] % 16)
  {
    if i > 0 {
      EncodeAt(bytes[1..], i - 1);
    }
  }

  /** Rendering a longer digest only appends the last byte's pair. */
  lemma {:induction false} EncodeAppend(bytes: seq<byte>, b: byte)
    ensures Encode(bytes + [b]) == Encode(bytes) + Pair(b)
  {
    if bytes == [] {
      assert bytes + [b] == [b];
    } else {
      assert (bytes + [b])[1..] == bytes[1..] + [b];
      EncodeAppend(bytes[1..], b);
    }
  }

  /** Decoding a rendering gives back the digest it was rendered from. */
  lemma {:induction false} DecodeEncode(bytes: seq<byte>)
    ensures Decode(Encode(bytes)) == Some(bytes)
  {
    if bytes != [] {
      var s := Encode(bytes);
      var b := bytes[0];
      assert s[2..] == Encode(bytes[1..]);
      DecodeEncode(bytes[1..]);
      assert DigitValue(s[0]) == b / 16;
      assert DigitValue(s[1]) == b % 16;
      assert bytes == [b] + bytes[1..];
    }
  }

  /** Two digests with the same rendering are the same digest. */
  lemma EncodeInjective(a: seq<byte>, b: seq<byte>)
    ensures Encode(a) == Encode(b) ==> a == b
  {
    DecodeEncode(a);
    DecodeEncode(b);
  }

  /** The loop both source files run: the string starts as 2n NUL characters
      (plus the terminator slot std::string keeps after them), and for each
      byte snprintf fills a three-character buffer with two digits and a NUL,
      all three of which are copied to position 2i. The NUL lands on the first
      character of the next pair, which the next iteration overwrites, or on
      the terminator after the last pair. */
  method Render(bytes: seq<byte>) returns (s: string)
    ensures s == Encode(bytes)
  {
    var n := |bytes|;
    var ret: string := seq(2 * n + 1, _ => '\0');
    var i := 0;
    while i < n
      invariant 0 <= i <= n
      invariant |ret| == 2 * n + 1
      invariant ret[..2 * i] == Encode(bytes[..i])
      invariant ret[2 * n] == '\0'
    {
      var buf := Pair(bytes[i]) + ['\0'];
      CopyPair(ret, Pair(bytes[i]), i, n);
      ret := ret[..2 * i] + buf + ret[2 * i + 3..];
      EncodeAppend(bytes[..i], bytes[i]);
      assert bytes[..i + 1] == bytes[..i] + [bytes[i]];
      i := i + 1;
    }
    assert bytes[..n] == bytes;
    s := ret[..2 * n];
  }

  /** One iteration's copy: a pair and a NUL written at position 2i of a
      string of 2n + 1 characters keep its length, extend the rendered prefix
      by the pair, and leave a NUL in the last slot. */
  lemma CopyPair(ret: string, pair: string, i: nat, n: nat)
    requires i < n && |ret| == 2 * n + 1 && |pair| == 2 && ret[2 * n] == '\0'
    ensures var ret' := ret[..2 * i] + (pair + ['\0']) + ret[2 * i + 3..];
            |ret'| == 2 * n + 1 && ret'[..2 * i + 2] == ret[..2 * i] + pair && ret'[2 * n] == '\0'
  {
    var ret' := ret[..2 * i] + (pair + ['\0']) + ret[2 * i + 3..];
    assert ret'[..2 * i + 2] == ret[..2 * i] + pair;
  }
}

=== FILE: platform.dfy ===
/** `open_flags` (platform.cc:57, 100-106): the flags files are opened with.
    Linux adds O_NOATIME, but only for files the effective user owns, since
    open(2) refuses O_NOATIME to anyone else; a path that cannot be stat'ed
    ends the process. FreeBSD always opens read-only. The attribute wrappers
    of platform.cc are the same code as xattr.cc and are modelled there. */
module Platform {
  import opened Common
  import opened Store
  import opened Xattr

  function OpenFlags(os: Os, fs: Fs, path: string): (r: Outcome<bv32>)
    ensures os == FreeBSD ==> r == Ok(O_RDONLY)
    ensures os == Linux ==> (r.Fatal? <==> path !in fs.files)
    ensures r.Ok? ==> (r.value & O_NOATIME != 0 <==> os == Linux && fs.files[path].owner == fs.euid)
    ensures r.Ok? ==> r.value & !O_NOATIME == O_RDONLY
  {
    match os
    case FreeBSD => Ok(O_RDONLY)
    case Linux =>
      match Stat(fs, path)
      case Failed(_) => Fatal("Failed to stat " + path)
      case Done(inode) =>
        if fs.euid == inode.owner then Ok(O_RDONLY | O_NOATIME) else Ok(O_RDONLY)
  }

  /** Opening with these flags fails only for want of the file or of read
      permission: never with EPERM. */
  lemma OpenFlagsNeverRefused(os: Os, fs: Fs, path: string)
    requires OpenFlags(os, fs, path).Ok?
    ensures Open(fs, path, OpenFlags(os, fs, path).value).Done?
            <==> path in fs.files && fs.files[path].readable
  {
  }
}

=== FILE: sources.dfy ===
/** Where workers get the paths they process (utils.cc:19-73; the same fixed
    list cursor is written out again at hasher.cc:25-42).

    A fixed list is the null-terminated argument vector with a cursor into
    it. A stream is the record channel a background walk fills with the paths
    of regular files. Both answer `GetNext` with a path, and with "" once
    there is nothing left. Claims are modelled one at a time: the
    compare-and-swap loop and the socket only make each claim atomic, which a
    sequential model has for free. */
module Sources {
  import opened Common

  /** The largest record `SocketFnameIterator::GetNext` reads at once. */
  const ReadBufferSize := 4096

  /** The argument vector `argv` (its null terminator sits at index |argv|)
      and the position the shared cursor points at. */
  datatype Cursor = Cursor(argv: seq<string>, pos: nat)

  /** AtomicFnameIterator::GetNext: at the terminator it returns "" and stays
      put; otherwise it claims the element under the cursor and moves the
      cursor on by one. */
  function AtomicGetNext(c: Cursor): (r: (string, Cursor))
    requires c.pos <= |c.argv|
    ensures r.1.argv == c.argv && r.1.pos <= |c.argv|
    ensures r.1.pos == c.pos <==> c.pos == |c.argv|
    ensures r.1.pos != c.pos ==> r.1.pos == c.pos + 1 && r.0 == c.argv[c.pos]
    ensures c.pos == |c.argv| ==> r.0 == ""
  {
    if c.pos == |c.argv| then ("", c) else (c.argv[c.pos], Cursor(c.argv, c.pos + 1))
  }

  /** The answers of `k` successive calls, starting from cursor `c`. */
  function Claims(c: Cursor, k: nat): seq<string>
    requires c.pos <= |c.argv|
    decreases k
  {
    if k == 0 then [] else var (p, next) := AtomicGetNext(c); [p] + Claims(next, k - 1)
  }

  /** `k` copies of "". */
  function Blanks(k: nat): (s: seq<string>)
    ensures |s| == k && forall i :: 0 <= i < k ==> s[i] == ""
  {
    if k == 0 then [] else [""] + Blanks(k - 1)
  }

  /** Successive calls return every remaining element once, in order, and then
      "" for ever. */
  lemma {:induction false} ClaimsDrainList(c: Cursor, extra: nat)
    requires c.pos <= |c.argv|
    ensures Claims(c, |c.argv| - c.pos + extra) == c.argv[c.pos..] + Blanks(extra)
    decreases |c.argv| - c.pos, extra
  {
    if c.pos < |c.argv| {
      ClaimsDrainList(Cursor(c.argv, c.pos + 1), extra);
      assert c.argv[c.pos..] == [c.argv[c.pos]] + c.argv[c.pos + 1..];
    } else if extra > 0 {
      ClaimsDrainList(c, extra - 1);
    }
  }

  /** The kinds of entry a physical walk meets. */
  datatype Kind = Regular | Directory | Symlink | Other

  /** One entry of the walk: its full path and what it is. */
  datatype Entry = Entry(path: string, kind: Kind)

  /** The record channel: records written and not yet read, and whether the
      writing end has been closed. */
  datatype Channel = Channel(records: seq<string>, closed: bool)

  /** The paths of the regular files of a walk, in walk order. */
  function RegularPaths(walk: seq<Entry>): (paths: seq<string>)
    ensures |paths| <= |walk|
  {
    if walk == [] then []
    else (if walk[0].kind == Regular then [walk[0].path] else []) + RegularPaths(walk[1..])
  }

  /** Every regular entry's record went out whole. */
  predicate AllSent(walk: seq<Entry>, sent: string -> int) {
    forall i :: 0 <= i < |walk| && walk[i].kind == Regular ==> sent(walk[i].path) == |walk[i].path|
  }

  /** The body of the walk loop from some point on: non-regular entries are
      skipped, each regular file's path is written as one record, and a
      failed (`sent` < 0) or short write ends the process. `sent(p)` is what
      write(2) returns for the record `p`. */
  function Emit(walk: seq<Entry>, sent: string -> int, ch: Channel): (r: Outcome<Channel>)
    ensures r.Ok? <==> AllSent(walk, sent)
    ensures r.Ok? ==> r.value == Channel(ch.records + RegularPaths(walk), ch.closed)
  {
    if walk == [] then Ok(ch)
    else if walk[0].kind != Regular then
      assert AllSent(walk, sent) <==> AllSent(walk[1..], sent) by {
        assert forall i :: 1 <= i < |walk| ==> walk[i] == walk[1..][i - 1];
      }
      Emit(walk[1..], sent, ch)
    else
      var p := walk[0].path;
      var written := sent(p);
      if written < 0 then Fatal("write")
      else if written != |p| then Fatal("wrote wrong amount")
      else
        assert AllSent(walk, sent) <==> AllSent(walk[1..], sent) by {
          assert forall i :: 1 <= i < |walk| ==> walk[i] == walk[1..][i - 1];
        }
        assert ch.records + [p] + RegularPaths(walk[1..]) == ch.records + RegularPaths(walk);
        Emit(walk[1..], sent, Channel(ch.records + [p], ch.closed))
  }

  /** SocketFnameIterator::Recurse: walks, emits, and closes the writing end
      once the walk is over. */
  function Recurse(walk: seq<Entry>, sent: string -> int): (r: Outcome<Channel>)
    ensures r.Ok? <==> AllSent(walk, sent)
    ensures r.Ok? ==> r.value == Channel(RegularPaths(walk), true)
  {
    var ch :- Emit(walk, sent, Channel([], false));
    Ok(ch.(closed := true))
  }

  /** What one read(2) of at most 4096 bytes delivers of a record. */
  function Truncate(record: string): (s: string)
    ensures |s| == if |record| <= ReadBufferSize then |record| else ReadBufferSize
    ensures s == record[..|s|]
  {
    if |record| <= ReadBufferSize then record else record[..ReadBufferSize]
  }

  /** SocketFnameIterator::GetNext: reads the next record, at most 4096 bytes
      of it; a read of 0 bytes (a closed, drained channel) gives "". A read
      on an empty channel whose writer is still open waits, which a
      sequential model cannot express, so it is not allowed here. */
  function SocketGetNext(ch: Channel): (r: (string, Channel))
    requires ch.closed || ch.records != []
    ensures r.1.closed == ch.closed
    ensures ch.records == [] ==> r == ("", ch)
    ensures ch.records != [] ==> r.1.records == ch.records[1..] && r.0 == Truncate(ch.records[0])
  {
    if ch.records == [] then ("", ch)
    else (Truncate(ch.records[0]), Channel(ch.records[1..], ch.closed))
  }

  /** The answers of `k` successive reads of a closed channel. */
  function Reads(ch: Channel, k: nat): seq<string>
    requires ch.closed
    decreases k
  {
    if k == 0 then [] else var (p, next) := SocketGetNext(ch); [p] + Reads(next, k - 1)
  }

  /** After a walk whose writes all succeeded, readers receive the path of
      every regular file once, in walk order, and then "" for ever. */
  lemma {:induction false} StreamDeliversRegularFiles(walk: seq<Entry>, sent: string -> int, extra: nat)
    requires AllSent(walk, sent)
    requires forall i :: 0 <= i < |walk| ==> |walk[i].path| <= ReadBufferSize
    ensures Recurse(walk, sent).Ok?
    ensures Reads(Recurse(walk, sent).value, |RegularPaths(walk)| + extra) == RegularPaths(walk) + Blanks(extra)
  {
    RegularPathsShort(walk);
    ReadsDrain(RegularPaths(walk), extra);
  }

  lemma {:induction false} RegularPathsShort(walk: seq<Entry>)
    requires forall i :: 0 <= i < |walk| ==> |walk[i].path| <= ReadBufferSize
    ensures forall i :: 0 <= i < |RegularPaths(walk)| ==> |RegularPaths(walk)[i]| <= ReadBufferSize
  {
    if walk != [] {
      assert forall i :: 1 <= i < |walk| ==> walk[i] == walk[1..][i - 1];
      RegularPathsShort(walk[1..]);
    }
  }

  lemma {:induction false} ReadsDrain(records: seq<string>, extra: nat)
    requires forall i :: 0 <= i < |records| ==> |records[i]| <= ReadBufferSize
    ensures Reads(Channel(records, true), |records| + extra) == records + Blanks(extra)
  {
    if records != [] {
      ReadsDrain(records[1..], extra);
      assert records == [records[0]] + records[1..];
    } else if extra > 0 {
      ReadsDrain(records, extra - 1);
    }
  }

  /** Either kind of path source, behind one `GetNext`. A stream is read only
      once its writer has closed (the walk has finished). */
  datatype Source = FixedList(cursor: Cursor) | Streaming(channel: Channel) {

    predicate Ready() {
      match this
      case FixedList(c) => c.pos <= |c.argv|
      case Streaming(ch) => ch.closed
    }

    /** How many answers are left before the source can only say "". */
    function Remaining(): nat
      requires Ready()
    {
      match this
      case FixedList(c) => |c.argv| - c.pos
      case Streaming(ch) => |ch.records|
    }
  }

  function GetNext(src: Source): (r: (string, Source))
    requires src.Ready()
    ensures r.1.Ready()
    ensures r.1.Remaining() <= src.Remaining()
    ensures r.0 != "" ==> r.1.Remaining() < src.Remaining()
  {
    match src
    case FixedList(c) => var (p, c') := AtomicGetNext(c); (p, FixedList(c'))
    case Streaming(ch) => var (p, ch') := SocketGetNext(ch); (p, Streaming(ch'))
  }

  /** The leading non-empty strings of `xs`: everything before the first "". */
  function UntilBlank(xs: seq<string>): (r: seq<string>)
    ensures |r| <= |xs| && r == xs[..|r|]
    ensures forall i :: 0 <= i < |r| ==> r[i] != ""
    ensures |r| < |xs| ==> xs[|r|] == ""
  {
    if xs == [] || xs[0] == "" then [] else [xs[0]] + UntilBlank(xs[1..])
  }

  /** What `xs` holds after its first "", which the worker that meets it
      has taken; nothing when there is no "". */
  function After(xs: seq<string>): (r: seq<string>)
    ensures |UntilBlank(xs)| < |xs| ==> xs == UntilBlank(xs) + [""] + r
    ensures |UntilBlank(xs)| == |xs| ==> r == []
  {
    if xs == [] then []
    else if xs[0] == "" then xs[1..]
    else After(xs[1..])
  }

  /** The paths `count` workers handle when they run one after another on
      the list `xs`: each takes the entries before the next "" and the ""
      itself. */
  function Segments(xs: seq<string>, count: nat): (r: seq<string>)
    ensures count > 0 && UntilBlank(xs) == xs ==> r == xs
    ensures forall i :: 0 <= i < |r| ==> r[i] != ""
    decreases count
  {
    if count == 0 then [] else UntilBlank(xs) + Segments(After(xs), count - 1)
  }

  /** Everything the source still holds, in the order it hands it out (a
      stream's records as one read delivers them). */
  function Rest(src: Source): (r: seq<string>)
    requires src.Ready()
    ensures |r| == src.Remaining()
  {
    match src
    case FixedList(c) => c.argv[c.pos..]
    case Streaming(ch) => seq(|ch.records|, i requires 0 <= i < |ch.records| => Truncate(ch.records[i]))
  }

  /** The paths a worker is handed before its first "": what the source
      holds up to its first empty entry. */
  function Pending(src: Source): seq<string>
    requires src.Ready()
  {
    UntilBlank(Rest(src))
  }

  /** One call of `GetNext` takes the first entry the source holds, or says
      "" and changes nothing when it holds none. */
  lemma GetNextStep(src: Source)
    requires src.Ready()
    ensures var (p, next) := GetNext(src);
            && (src.Remaining() == 0 ==> p == "" && Rest(next) == [])
            && (src.Remaining() > 0 ==> p == Rest(src)[0] && Rest(next) == Rest(src)[1..])
            && (if p == "" then Pending(src) == [] else Pending(src) == [p] + Pending(next))
  {
    match src
    case FixedList(c) =>
      if c.pos < |c.argv| {
        assert c.argv[c.pos..][1..] == c.argv[c.pos + 1..];
      }
    case Streaming(ch) =>
      if ch.records != [] {
        var t := Rest(src);
        assert t[1..] == Rest(GetNext(src).1);
      }
  }
}

=== FILE: status.dfy ===
/** Per-file outcomes and how they are combined (hasher.cc:13-17, 53, 185-189).

    A file's outcome is one of three enum values whose underlying unsigned
    values are 0, 1 and 2. Each worker ORs the outcomes of the files it handles
    into its own code, `main` ORs the workers' codes together, and the exit
    status keeps either every bit or only the MISMATCH bit. */
module Status {

  datatype HashStatus = OK | MISMATCH | ERROR

  const MismatchBit: bv32 := 1
  const ErrorBit: bv32 := 2

  /** The enum's underlying value. */
  function Code(s: HashStatus): (c: bv32)
    ensures c & MismatchBit != 0 <==> s == MISMATCH
    ensures c & ErrorBit != 0 <==> s == ERROR
    ensures c & !(MismatchBit | ErrorBit) == 0
  {
    match s
    case OK => 0
    case MISMATCH => MismatchBit
    case ERROR => ErrorBit
  }

  /** The aggregate that records exactly which kinds of outcome were seen. */
  function Bits(mismatch: bool, error: bool): bv32 {
    (if mismatch then MismatchBit else 0) | (if error then ErrorBit else 0)
  }

  /** One worker's `*ret |= task(...)` over the outcomes it produced, in the
      order it produced them, from a code of 0. */
  function Fold(statuses: seq<HashStatus>): (code: bv32)
    ensures code == Bits(MISMATCH in statuses, ERROR in statuses)
  {
    if statuses == [] then 0
    else
      var last := |statuses| - 1;
      assert statuses == statuses[..last] + [statuses[last]];
      Fold(statuses[..last]) | Code(statuses[last])
  }

  /** `a |= b` on the running code. */
  function Or(a: bv32, b: bv32): bv32 {
    a | b
  }

  /** The worker loop itself: each outcome's code ORed into the running
      code `ret`, first outcome first. Whatever the order, that is `ret` ORed
      with the fold of the outcomes. */
  function Accumulate(ret: bv32, statuses: seq<HashStatus>): (code: bv32)
    ensures code == Or(ret, Fold(statuses))
    decreases |statuses|
  {
    if statuses == [] then
      OrZero(ret);
      ret
    else
      var s, rest := statuses[0], statuses[1..];
      OrAssoc(ret, Code(s), Fold(rest));
      FoldCons(s, rest);
      assert statuses == [s] + rest;
      Accumulate(Or(ret, Code(s)), rest)
  }

  /** `std::reduce` of the per-worker codes with `|`, from 0: every bit of
      every worker's code is set in it. `ReduceFolds` says which bits those
      are. */
  function Reduce(codes: seq<bv32>): (code: bv32)
    ensures forall i :: 0 <= i < |codes| ==> Or(codes[i], code) == code
  {
    if codes == [] then 0
    else
      var init, last := codes[..|codes| - 1], codes[|codes| - 1];
      var before := Reduce(init);
      forall i | 0 <= i < |codes|
        ensures Or(codes[i], before | last) == before | last
      {
        if i < |init| {
          assert codes[i] == init[i];
          OrAbsorbed(codes[i], before, last);
        }
      }
      before | last
  }

  /** A code covered by `a` is covered by `a` with more bits set. */
  lemma OrAbsorbed(x: bv32, a: bv32, b: bv32)
    requires Or(x, a) == a
    ensures Or(x, a | b) == a | b
  {
  }

  /** The workers' outcome lists laid end to end. */
  function Concat(ws: seq<seq<HashStatus>>): seq<HashStatus> {
    if ws == [] then [] else Concat(ws[..|ws| - 1]) + ws[|ws| - 1]
  }

  /** Each worker's own code. */
  function Folds(ws: seq<seq<HashStatus>>): seq<bv32> {
    seq(|ws|, i requires 0 <= i < |ws| => Fold(ws[i]))
  }

  /** The status `main` returns: every bit when all errors are reported,
      otherwise only the MISMATCH bit. */
  function ExitStatus(result: bv32, reportAllErrors: bool): (exit: bv32)
    ensures exit & MismatchBit == result & MismatchBit
    ensures reportAllErrors ==> exit == result
    ensures !reportAllErrors ==> exit & !MismatchBit == 0
  {
    if reportAllErrors then result else result & MismatchBit
  }

  /** OK is the identity of the fold: adding OK outcomes changes nothing. */
  lemma FoldIgnoresOk(a: seq<HashStatus>, b: seq<HashStatus>)
    requires forall i :: 0 <= i < |b| ==> b[i] == OK
    ensures Fold(a + b) == Fold(a)
  {
    assert MISMATCH in a + b <==> MISMATCH in a;
    assert ERROR in a + b <==> ERROR in a;
  }

  /** The fold does not depend on the order of the outcomes. */
  lemma FoldPermutation(a: seq<HashStatus>, b: seq<HashStatus>)
    requires multiset(a) == multiset(b)
    ensures Fold(a) == Fold(b)
  {
    assert MISMATCH in a <==> MISMATCH in multiset(a);
    assert MISMATCH in b <==> MISMATCH in multiset(b);
    assert ERROR in a <==> ERROR in multiset(a);
    assert ERROR in b <==> ERROR in multiset(b);
  }

  /** Folding one list after another is OR-ing their folds. */
  lemma FoldAppend(a: seq<HashStatus>, b: seq<HashStatus>)
    ensures Fold(a + b) == Fold(a) | Fold(b)
  {
    assert MISMATCH in a + b <==> MISMATCH in a || MISMATCH in b;
    assert ERROR in a + b <==> ERROR in a || ERROR in b;
  }

  /** OR-ing the workers' codes is folding all their outcomes at once. */
  lemma {:induction false} ReduceFolds(ws: seq<seq<HashStatus>>)
    ensures Reduce(Folds(ws)) == Fold(Concat(ws))
  {
    if ws != [] {
      var last := |ws| - 1;
      assert Folds(ws)[..last] == Folds(ws[..last]);
      ReduceFolds(ws[..last]);
      FoldAppend(Concat(ws[..last]), ws[last]);
    }
  }

  /** However the files are shared among the workers and in whatever order
      each worker meets them, the aggregate is the fold of all outcomes. */
  lemma AggregateIndependentOfSchedule(ws: seq<seq<HashStatus>>, all: seq<HashStatus>)
    requires multiset(Concat(ws)) == multiset(all)
    ensures Reduce(Folds(ws)) == Fold(all)
  {
    ReduceFolds(ws);
    FoldPermutation(Concat(ws), all);
  }

  /** What the exit status tells: with all errors reported it is exactly the
      set of outcome kinds seen; otherwise it is 1 when some file mismatched
      and 0 when none did, whatever errors occurred. */
  lemma ExitStatusMeaning(statuses: seq<HashStatus>, reportAllErrors: bool)
    ensures reportAllErrors ==> ExitStatus(Fold(statuses), reportAllErrors) == Bits(MISMATCH in statuses, ERROR in statuses)
    ensures !reportAllErrors ==> ExitStatus(Fold(statuses), reportAllErrors) == (if MISMATCH in statuses then 1 else 0)
  {
  }

  /** One more outcome in front: its code is ORed in first. */
  lemma AccumulateCons(ret: bv32, s: HashStatus, rest: seq<HashStatus>)
    ensures Accumulate(ret, [s] + rest) == Accumulate(Or(ret, Code(s)), rest)
  {
    assert ([s] + rest)[1..] == rest;
  }

  lemma FoldCons(s: HashStatus, rest: seq<HashStatus>)
    ensures Fold([s] + rest) == Or(Code(s), Fold(rest))
  {
    FoldAppend([s], rest);
    assert [s][..0] == [];
  }

  lemma OrZero(a: bv32)
    ensures Or(a, Fold([])) == a
  {
  }

  lemma OrAssoc(a: bv32, b: bv32, c: bv32)
    ensures Or(Or(a, b), c) == Or(a, Or(b, c))
  {
  }

  /** From a code of 0 the loop computes the fold. */
  lemma AccumulateFromZero(statuses: seq<HashStatus>)
    ensures Accumulate(0, statuses) == Fold(statuses)
  {
  }
}

=== FILE: store.dfy ===
/** The operating system as the program sees it: files with contents,
    extended attributes, an owner and the permissions the running user has on
    them, and the system calls the program makes, each answering with a value
    or an errno. Attribute names are the full names the Linux calls take
    ("user.hash.sha512"). Nothing here is the program's own logic; it is the
    environment its logic is run against. */
module Store {
  import opened Common

  /** The errno values the program tests or can meet. `NoError` is an errno
      variable that holds 0. */
  datatype Errno = NoError | EPERM | ENOENT | EIO | EACCES | EINVAL | ERANGE | ENODATA | ENOATTR

  datatype SysResult<+T> = Done(value: T) | Failed(errno: Errno)

  /** One file: its bytes, its extended attributes by full name, its owner,
      whether the running user may read and write it, and whether its
      device fails every attribute call (an I/O error). */
  datatype Inode = Inode(
    data: seq<byte>,
    attrs: map<string, seq<byte>>,
    owner: nat,
    readable: bool,
    writable: bool,
    faulty: bool)

  /** The file system by path, and the effective user id of the process. */
  datatype Fs = Fs(files: map<string, Inode>, euid: nat)

  const O_RDONLY: bv32 := 0
  const O_NOATIME: bv32 := 0x40000
  const R_OK: bv32 := 4
  const W_OK: bv32 := 2

  /** A file whose attribute calls reach the attribute store. */
  predicate Reachable(fs: Fs, path: string) {
    path in fs.files && !fs.files[path].faulty
  }

  /** open(2). O_NOATIME is refused with EPERM to anyone but the owner. */
  function Open(fs: Fs, path: string, flags: bv32): (r: SysResult<()>)
    ensures r.Done? <==> path in fs.files && fs.files[path].readable
                         && (flags & O_NOATIME != 0 ==> fs.euid == fs.files[path].owner)
  {
    if path !in fs.files then Failed(ENOENT)
    else if !fs.files[path].readable then Failed(EACCES)
    else if flags & O_NOATIME != 0 && fs.euid != fs.files[path].owner then Failed(EPERM)
    else Done(())
  }

  /** stat(2): only the path has to exist. */
  function Stat(fs: Fs, path: string): SysResult<Inode> {
    if path in fs.files then Done(fs.files[path]) else Failed(ENOENT)
  }

  /** mmap(2) of a whole file; a length of zero is refused with EINVAL. */
  function Mmap(fs: Fs, path: string, len: nat): (r: SysResult<seq<byte>>)
    requires path in fs.files && len == |fs.files[path].data|
    ensures r.Done? <==> len > 0
    ensures r.Done? ==> r.value == fs.files[path].data
  {
    if len == 0 then Failed(EINVAL) else Done(fs.files[path].data)
  }

  /** access(2) with a mode made of R_OK and W_OK. */
  function Access(fs: Fs, path: string, amode: bv32): SysResult<()> {
    if path !in fs.files then Failed(ENOENT)
    else if amode & R_OK != 0 && !fs.files[path].readable then Failed(EACCES)
    else if amode & W_OK != 0 && !fs.files[path].writable then Failed(EACCES)
    else Done(())
  }

  /** getxattr(2) into a buffer of `capacity` bytes. A capacity of 0 asks for
      the size only; the reply then reports the value whose length is that
      size. A value longer than a non-zero capacity is refused with ERANGE. */
  function GetXattr(fs: Fs, path: string, name: string, capacity: nat): (r: SysResult<seq<byte>>)
    ensures r.Done? <==> Reachable(fs, path) && fs.files[path].readable && name in fs.files[path].attrs
                         && (capacity == 0 || |fs.files[path].attrs[name]| <= capacity)
    ensures r.Done? ==> r.value == fs.files[path].attrs[name]
  {
    if path !in fs.files then Failed(ENOENT)
    else if fs.files[path].faulty then Failed(EIO)
    else if !fs.files[path].readable then Failed(EACCES)
    else if name !in fs.files[path].attrs then Failed(ENODATA)
    else if capacity > 0 && |fs.files[path].attrs[name]| > capacity then Failed(ERANGE)
    else Done(fs.files[path].attrs[name])
  }

  /** The file system with one attribute of one file replaced. */
  function WithAttrs(fs: Fs, path: string, attrs: map<string, seq<byte>>): Fs
    requires path in fs.files
  {
    fs.(files := fs.files[path := fs.files[path].(attrs := attrs)])
  }

  /** Whether `fs'` is `fs` with at most the attribute `name` of `path`
      different: the same files with the same contents, owners and
      permissions, and every other attribute of every file as it was. */
  ghost predicate OnlySlotChanges(fs: Fs, fs': Fs, path: string, name: string) {
    && fs'.euid == fs.euid
    && fs'.files.Keys == fs.files.Keys
    && (forall q :: q in fs.files ==> fs'.files[q].(attrs := fs.files[q].attrs) == fs.files[q])
    && (forall q, m :: q in fs.files && (q != path || m != name) ==> Slot(fs', q, m) == Slot(fs, q, m))
  }

  /** The file system after the attribute `name` of `path` is set to
      `value`: that slot holds `value` and nothing else changes. */
  function Written(fs: Fs, path: string, name: string, value: seq<byte>): (fs': Fs)
    requires path in fs.files
    ensures Slot(fs', path, name) == Some(value)
    ensures OnlySlotChanges(fs, fs', path, name)
  {
    WithAttrs(fs, path, fs.files[path].attrs[name := value])
  }

  /** The file system after the attribute `name` of `path` is removed: that
      slot is empty and nothing else changes, so a file without the
      attribute is left as it was. */
  function Erased(fs: Fs, path: string, name: string): (fs': Fs)
    requires path in fs.files
    ensures Slot(fs', path, name).None?
    ensures OnlySlotChanges(fs, fs', path, name)
    ensures Slot(fs, path, name).None? ==> fs' == fs
  {
    var attrs := fs.files[path].attrs - {name};
    assert name !in fs.files[path].attrs ==> attrs == fs.files[path].attrs && fs.files[path := fs.files[path]] == fs.files;
    WithAttrs(fs, path, attrs)
  }

  /** setxattr(2): needs write permission. */
  function SetXattr(fs: Fs, path: string, name: string, value: seq<byte>): (r: SysResult<Fs>)
    ensures r.Done? <==> Reachable(fs, path) && fs.files[path].writable
    ensures r.Done? ==> r.value == Written(fs, path, name, value)
  {
    if path !in fs.files then Failed(ENOENT)
    else if fs.files[path].faulty then Failed(EIO)
    else if !fs.files[path].writable then Failed(EACCES)
    else Done(Written(fs, path, name, value))
  }

  /** removexattr(2): needs write permission, and the attribute must exist. */
  function RemoveXattr(fs: Fs, path: string, name: string): (r: SysResult<Fs>)
    ensures r.Done? <==> Reachable(fs, path) && fs.files[path].writable && name in fs.files[path].attrs
    ensures r.Done? ==> r.value == Erased(fs, path, name)
  {
    if path !in fs.files then Failed(ENOENT)
    else if fs.files[path].faulty then Failed(EIO)
    else if !fs.files[path].writable then Failed(EACCES)
    else if name !in fs.files[path].attrs then Failed(ENODATA)
    else Done(Erased(fs, path, name))
  }

  /** The value stored under `name` on `path`, if any. */
  function Slot(fs: Fs, path: string, name: string): Option<seq<byte>> {
    if path in fs.files && name in fs.files[path].attrs then Some(fs.files[path].attrs[name]) else None
  }
}

/** The message-digest library the program links against, reduced to what it
    promises: a table of known algorithm names with their digest sizes, and a
    digest function. Which function it is stays open: every property of the
    model holds for any digest function that keeps to the sizes. */
module Digests {
  import opened Common

  /** EVP_MAX_MD_SIZE. */
  const MaxDigestSize := 64

  datatype Digester = Digester(sizes: map<string, nat>, digest: (string, seq<byte>) -> seq<byte>) {

    /** EVP_get_digestbyname finds the algorithm. */
    predicate Known(alg: string) {
      alg in sizes
    }

    /** Every digest of a known algorithm has that algorithm's non-zero size,
        at most EVP_MAX_MD_SIZE. */
    ghost predicate Valid() {
      forall alg, data :: alg in sizes ==> 0 < |digest(alg, data)| == sizes[alg] <= MaxDigestSize
    }
  }
}

=== FILE: xattr.dfy ===
/** The extended-attribute wrappers `get_attr`, `set_attr` and `remove_attr`
    (xattr.cc:9-77; platform.cc:25-98 carries the same three functions for
    both systems). Each turns a system call's return value and errno into a
    small integer code: 0 for success, 1 for an expected failure, -1 for any
    other. On Linux every name is put in the "user." namespace by prefixing
    it; on FreeBSD the bare name is used in EXTATTR_NAMESPACE_USER.

    The functions here take the call's return value and errno as given; the
    `...On` functions run the Linux branch against the file-system model. */
module Xattr {
  import opened Common
  import opened Store

  datatype Os = Linux | FreeBSD

  /** The errno a missing attribute produces: FreeBSD calls it ENOATTR. */
  function NoAttr(os: Os): Errno {
    match os
    case Linux => ENODATA
    case FreeBSD => ENOATTR
  }

  /** The attribute name handed to the system call. */
  function SystemName(os: Os, name: string): (n: string)
    ensures os == Linux ==> |n| == |name| + 5 && n[..5] == "user." && n[5..] == name
    ensures os == FreeBSD ==> n == name
  {
    match os
    case Linux => "user." + name
    case FreeBSD => name
  }

  /** The integer code and the size `get_attr` leaves in `*size`. */
  datatype GetAttrResult = GetAttrResult(code: int, size: nat)

  /** get_attr: a non-negative return is the attribute's length (code 0), a
      missing attribute is code 1 with a size of 0, anything else is code -1
      with `*size` untouched. */
  function GetAttr(os: Os, ret: int, errno: Errno, size: nat): (r: GetAttrResult)
    ensures r.code in {-1, 0, 1}
    ensures r.code == 0 <==> ret >= 0
    ensures r.code == 0 ==> r.size == ret
    ensures r.code == 1 <==> ret < 0 && errno == NoAttr(os)
    ensures r.code == 1 ==> r.size == 0
    ensures r.code == -1 ==> r.size == size
  {
    if ret >= 0 then GetAttrResult(0, ret)
    else if errno == NoAttr(os) then GetAttrResult(1, 0)
    else GetAttrResult(-1, size)
  }

  /** set_attr: success is 0, EACCES is 1, anything else -1. Linux's
      setxattr returns 0 on success; FreeBSD's extattr_set_file returns the
      number of bytes written. */
  function SetAttr(os: Os, ret: int, errno: Errno): (code: int)
    ensures code in {-1, 0, 1}
    ensures code == 0 <==> SetSucceeded(os, ret)
    ensures code == 1 <==> !SetSucceeded(os, ret) && errno == EACCES
  {
    match os
    case Linux => if ret == 0 then 0 else if errno == EACCES then 1 else -1
    case FreeBSD => if ret >= 0 then 0 else if errno == EACCES then 1 else -1
  }

  /** What each branch of set_attr takes for success. */
  predicate SetSucceeded(os: Os, ret: int) {
    match os
    case Linux => ret == 0
    case FreeBSD => ret >= 0
  }

  /** remove_attr: success, a missing attribute and EACCES are all 0;
      anything else is -1. */
  function RemoveAttr(os: Os, ret: int, errno: Errno): (code: int)
    ensures code in {-1, 0}
    ensures code == -1 <==> ret != 0 && errno != NoAttr(os) && errno != EACCES
  {
    if ret == 0 then 0
    else if errno == NoAttr(os) then 0
    else if errno == EACCES then 0
    else -1
  }

  /** The errno FreeBSD reports where Linux reports `e`. */
  function OnFreeBSD(e: Errno): Errno {
    if e == ENODATA then ENOATTR else e
  }

  /** The two branches classify alike once ENOATTR stands in for ENODATA:
      get and remove for every return value; set for what each system call
      may return, -1 on failure and on success 0 (Linux) or the bytes
      written (FreeBSD). */
  lemma BranchesAgree(ret: int, written: nat, e: Errno, size: nat)
    requires e != ENOATTR
    ensures GetAttr(Linux, ret, e, size) == GetAttr(FreeBSD, ret, OnFreeBSD(e), size)
    ensures RemoveAttr(Linux, ret, e) == RemoveAttr(FreeBSD, ret, OnFreeBSD(e))
    ensures ret == 0 || ret == -1 ==>
              SetAttr(Linux, ret, e) == SetAttr(FreeBSD, if ret == 0 then written else -1, OnFreeBSD(e))
  {
  }

  /** The outcome of a system call as (return value, errno). */
  function Raw<T>(r: SysResult<T>, success: int): (int, Errno) {
    match r
    case Done(_) => (success, NoError)
    case Failed(e) => (-1, e)
  }

  /** get_attr (Linux) on the model: the code, the size left in `*size` and
      the bytes copied into the buffer of `size` bytes. */
  function GetAttrOn(fs: Fs, path: string, name: string, size: nat): (r: (GetAttrResult, seq<byte>))
    ensures r.0.code == 0 <==> Reachable(fs, path) && fs.files[path].readable
                               && Slot(fs, path, SystemName(Linux, name)).Some?
                               && (size == 0 || |Slot(fs, path, SystemName(Linux, name)).value| <= size)
    ensures r.0.code == 0 ==> r.0.size == |r.1| && r.1 == Slot(fs, path, SystemName(Linux, name)).value
    ensures r.0.code == 1 <==> Reachable(fs, path) && fs.files[path].readable
                               && Slot(fs, path, SystemName(Linux, name)).None?
    ensures r.0.code == 1 ==> r.0.size == 0
    ensures r.0.code in {-1, 0, 1}
  {
    var reply := GetXattr(fs, path, SystemName(Linux, name), size);
    var bytes := if reply.Done? then reply.value else [];
    var (ret, errno) := Raw(reply, |bytes|);
    (GetAttr(Linux, ret, errno, size), bytes)
  }

  /** set_attr (Linux) on the model: the code and the file system after. */
  function SetAttrOn(fs: Fs, path: string, name: string, value: seq<byte>): (r: (int, Fs))
    ensures r.0 == 0 <==> Reachable(fs, path) && fs.files[path].writable
    ensures r.0 == 0 ==> Slot(r.1, path, SystemName(Linux, name)) == Some(value)
    ensures r.0 == 0 ==> r.1 == Written(fs, path, SystemName(Linux, name), value)
    ensures r.0 == 1 <==> Reachable(fs, path) && !fs.files[path].writable
    ensures r.0 == -1 <==> !Reachable(fs, path)
    ensures r.0 != 0 ==> r.1 == fs
  {
    var reply := SetXattr(fs, path, SystemName(Linux, name), value);
    var (ret, errno) := Raw(reply, 0);
    (SetAttr(Linux, ret, errno), if reply.Done? then reply.value else fs)
  }

  /** remove_attr (Linux) on the model: the code and the file system after. */
  function RemoveAttrOn(fs: Fs, path: string, name: string): (r: (int, Fs))
    ensures r.0 == 0 <==> Reachable(fs, path)
    ensures r.0 in {0, -1}
    ensures r.0 == 0 && fs.files[path].writable ==> Slot(r.1, path, SystemName(Linux, name)).None?
    ensures r.0 == 0 && fs.files[path].writable ==> r.1 == Erased(fs, path, SystemName(Linux, name))
    ensures r.0 == 0 && !fs.files[path].writable ==> r.1 == fs
    ensures r.0 != 0 ==> r.1 == fs
  {
    var reply := RemoveXattr(fs, path, SystemName(Linux, name));
    var (ret, errno) := Raw(reply, 0);
    (RemoveAttr(Linux, ret, errno), if reply.Done? then reply.value else fs)
  }

  /** Removing twice is removing once: the second call reports 0 as well and
      changes nothing. */
  lemma RemoveIdempotent(fs: Fs, path: string, name: string)
    requires RemoveAttrOn(fs, path, name).0 == 0
    ensures RemoveAttrOn(RemoveAttrOn(fs, path, name).1, path, name) == (0, RemoveAttrOn(fs, path, name).1)
  {
    var fs1 := RemoveAttrOn(fs, path, name).1;
    assert path in fs1.files && fs1.files[path].writable == fs.files[path].writable;
  }
}
